=== FILE: README.md ===
# wiiuse classic controller and handshake core, in Dafny

A model of two parts of the wiiuse Wiimote driver (the DacoTaco fork) and proofs about them:

- **The classic controller expansion** (`src/classic.c`). This covers:
  - the calibration handshake: Wii U Pro detection, garbage-block retry, the 16-byte mirror offset, the /4 and /8 stick decoding with its zero-means-default rule;
  - the per-axis calibration repair;
  - the two input-report layouts: 6/5-bit packed for `type` 0 and 1, 12-bit for `type` 2;
  - the active-low button edge tracker;
  - the disconnect reset.
- **The handshake state machines** (`src/io.c`). This covers:
  - the asynchronous device handshake `wiiuse_handshake`, with its `handshake_state` cursor and the 10-bit accelerometer calibration decode;
  - the expansion handshake `wiiuse_handshake_expansion`, with its `expansion_state` cursor and ID dispatch;
  - its entry guard `wiiuse_handshake_expansion_start`;
  - expansion removal `wiiuse_disable_expansion`;
  - the packet and chunk arithmetic of `wiiuse_read_data_sync`.

Everything is modelled as pure functions over immutable records:

- A call's transport requests (`wiiuse_status`, `wiiuse_read_data`, `wiiuse_write_data`, `wiiuse_set_ir_mode`, `wiiuse_set_leds`) become a list of emitted `Wire.Command` values. Each command names the callback that its completion goes to.
- Bytes are `bv8`, button words `bv16`, addresses and ID codes `bv32`.
- The `WIIMOTE_STATE_*` flags are a `set<Device.StateFlag>`.
- The header constants that the core uses but does not define are the fields of a `Wire.Headers` value. These are `EXP_HANDSHAKE_LEN`, `WM_EXP_*`, `WM_MEM_OFFSET_CALIBRATION`, `EXP_ID_CODE_*`, `CLASSIC_CTRL_BUTTON_*` and `WM_CTRL_STATUS_BYTE1_ATTACHMENT`. `Headers.Valid()` states the only facts the code relies on: the nunchuk, guitar and balance board IDs are distinct from each other and from every classic ID; the Wii U Pro ID is one of the classic IDs; and the expansion block length is at least 224, enough to hold the ID at offset 220, and at most 0xFFFF, so it fits the 16-bit length parameter.

Modules follow the source:

| module | file | models |
|---|---|---|
| `Bytes` | bytes.dfy | widths and big-endian packing |
| `Wire` | wire.dfy | commands, callbacks, header constants |
| `Calibration` | calibration.dfy | `fix_bad_calibration_values` |
| `ButtonEdges` | buttons.dfy | `classic_ctrl_pressed_buttons` |
| `Classic` | classic.dfy | `classic_ctrl_handshake`, `classic_ctrl_event`, `classic_ctrl_disconnected` |
| `Accel` | accel.dfy | the accelerometer calibration decode |
| `Device` | device.dfy | the part of `struct wiimote_t` the handshakes touch |
| `DeviceHandshake` | handshake.dfy | `wiiuse_handshake` (asynchronous build) |
| `ExpansionHandshake` | expansion.dfy | `wiiuse_handshake_expansion`, `wiiuse_handshake_expansion_start`, `wiiuse_disable_expansion` |
| `ReadSync` | readsync.dfy | packet and chunking of `wiiuse_read_data_sync` |

Where the code's own comments say more or other than its statements do, the model follows the statements:

- **Released buttons.** The comment at src/classic.c:232 says "were pressed or were held & not pressed now". The statement at src/classic.c:233 uses the *freshly computed* held word (src/classic.c:230), not the previous one. Since held ⊆ previous, `released` is exactly "pressed before, not pressed now".
- **Zeroing before retry.** `classic_ctrl_handshake` zeroes the button words and shoulder levels before it checks anything (src/classic.c:58-62). The retry path therefore also clears them. The calibration and `type` are left alone on that path.
- **Retry return value.** The `@return` at src/classic.c:52 says 1 means success and 0 failure. The garbage-block retry is not a failure, yet it returns 0 (src/classic.c:96). Only the paths that reach `done_handshake` return 1.
- **Type-2 stick values.** The comment at src/classic.c:161 calls them "12-bit little endian values adjusted to 8-bit". The statements at src/classic.c:162-165 keep the full 12-bit value (0..4095) in an `int`, and so does the model. The shoulder values that type 2 computes from the full-press buttons are never stored, because the `goto set_state` skips the stores.
- **Read retry.** The doc comment of `wiiuse_read_data_sync` (src/io.c:175-177) says it does not return until it has the requested data, and the comment at src/io.c:217 says a timeout leads to "abort and retry". As written the loop never retries; see Findings.

## Model

| member | source | states |
|---|---|---|
| Bytes.BigEndian16 | src/classic.c:175 | the big-endian word of two bytes has the first byte as its high byte and the second as its low byte |
| Bytes.BigEndian16Split | src/classic.c:175 | every 16-bit word is the big-endian reading of its own high and low byte |
| Bytes.BigEndian32 | src/io.c:463 | the 32-bit big-endian value of four bytes has each byte at its position, most significant first |
| Bytes.ToBigEndian16 | src/io.c:199 | writing a word as two big-endian bytes and reading them back gives the word |
| Bytes.ToBigEndian32 | src/io.c:193 | writing a 32-bit value as four big-endian bytes and reading them back gives the value |
| Calibration.DefaultRange | src/classic.c:207-209 | the replacement axis {0,16,32} (right) or {0,32,64} (left) is itself a valid axis |
| Calibration.FixAxis | src/classic.c:206-210 | an axis is replaced by the default exactly when min >= center or max <= center; the result is always valid |
| Calibration.FixBadCalibration | src/classic.c:205-216 | after repair both axes satisfy min < center < max; each valid axis is kept, each invalid axis becomes the default of its stick |
| Calibration.FixValidUnchanged | src/classic.c:206-215 | repair leaves a fully valid joystick unchanged |
| Calibration.FixIdempotent | src/classic.c:205-216 | repairing twice gives the same joystick as repairing once |
| ButtonEdges.Pressed | src/classic.c:227 | a button is pressed exactly when its raw bit is 0 and it is in the known button set |
| ButtonEdges.Held | src/classic.c:230 | held buttons are pressed now and were pressed before, and every such button is held |
| ButtonEdges.Released | src/classic.c:233 | released buttons were pressed before and are not pressed now, and every such button is released |
| ButtonEdges.PressedButtons | src/classic.c:224-237 | the new record holds the pressed word, and the held and released words relative to the previous pressed word; held and released do not overlap and together are exactly the previously pressed buttons |
| ButtonEdges.HeldAndReleasedSplitPrevious | src/classic.c:230-233 | the previously pressed buttons split exactly into held and released, with no overlap |
| ButtonEdges.SamePressedSet | src/classic.c:230-233 | with no change in the pressed set, everything is held and nothing is released |
| ButtonEdges.RepeatedReportHoldsAll | src/classic.c:224-237 | feeding the same raw word twice leaves held equal to pressed and released empty |
| ButtonEdges.EdgeExample | src/classic.c:224-237 | buttons 0b11 pressed, then only 0b01: held 0b01, released 0b10 |
| Classic.Disconnected | src/classic.c:141 | the whole classic record is zero: buttons, shoulders, raw shoulders, both calibrations, type |
| Classic.DecodeOriginal | src/classic.c:180-188 | the type 0/1 fields are in range (sticks and shoulders ≤ 0x3F / 0x1F) and the button word is bytes 4..5 big-endian |
| Classic.OriginalDecodeEncode | src/classic.c:180-188 | every in-range field tuple survives encoding into the packed layout and decoding |
| Classic.OriginalEncodeDecode | src/classic.c:180-188 | every bit of the six bytes belongs to exactly one field: decoding then re-encoding gives the bytes back |
| Classic.Axis12 | src/classic.c:162-165 | a type-2 axis is below 4096, with the second byte as its top 8 bits and the first byte's high nibble as its low 4 bits |
| Classic.DecodePro | src/classic.c:154-165 | type-2 sticks are 12-bit and the button word is bytes 8..9 big-endian |
| Classic.ProDecodeEncode | src/classic.c:156-165 | every in-range type-2 field tuple survives encoding and decoding |
| Classic.Event | src/classic.c:149-203 | type 2: buttons come from bytes 8..9, lx/rx/ly/ry are the 12-bit values of byte pairs 0-1, 2-3, 4-5, 6-7, shoulders and raw shoulders are unchanged. Otherwise: buttons come from bytes 4..5, sticks are 6/5-bit, raw shoulders are ≤ 0x1F and shoulder levels equal them. Calibration and type are never changed |
| Classic.OriginalEventRoundTrip | src/classic.c:172-198 | a type 0/1 report built from known fields yields exactly those sticks and shoulders, and the inverted, masked button word |
| Classic.ProEventRoundTrip | src/classic.c:154-170 | a type-2 report built from known 12-bit sticks yields exactly those sticks and the inverted, masked button word, with the shoulders kept |
| Classic.Scaled | src/classic.c:107 | a scaled calibration byte is the quotient, or the default when the quotient is zero; it is never zero |
| Classic.DecodeStick | src/classic.c:107-119 | max is read from bytes +0/+3, min from +1/+4, center from +2/+5, each divided by the stick's divisor; max and center replace a zero quotient by their default, so they are never zero |
| Classic.Handshake | src/classic.c:55-134 | buttons and shoulders are always zeroed. Retry happens iff the block is not Wii U Pro and both the first byte and the mirror are unusable; then the calibration and type are kept and the block is re-read. Wii U Pro gives the fixed {48,128,208} calibration and type 2. Otherwise type is `len>218 && data[218]≠0`, and each axis is the decoded one if valid or the default if not |
| Classic.MirrorReadsShiftedBlock | src/classic.c:76-120 | a block with filler at byte 0 and a good mirror at 16 gives the same calibration as a block that starts with the mirrored bytes |
| Accel.Ten | src/io.c:404 | a 10-bit value is below 1024, its top 8 bits are the high byte and its low 2 bits the fragment |
| Accel.Triple | src/io.c:404-406 | each axis is below 1024, `zero >> 2` is its data byte, and its low 2 bits are bits 5:4, 3:2 or 1:0 of the trailer byte |
| Accel.Decode | src/io.c:404-410 | cal_zero is the triple at bytes 0..3; cal_g fits 16 bits, and cal_g + cal_zero (mod 2^16) is the triple at bytes 4..7 |
| Accel.WrapUndoesSub | src/io.c:408-410 | a wrapped 16-bit difference plus the subtrahend, wrapped, gives the 16-bit minuend back |
| Accel.Trailer | src/io.c:404-406 | the trailer byte built from three 2-bit fragments yields each fragment back at bits 5:4, 3:2 and 1:0 |
| Accel.TripleRoundTrip | src/io.c:404-406 | three high bytes and a trailer, stored in the 4-byte layout, decode to the 10-bit values assembled from them |
| Accel.DecodeEncode | src/io.c:404-410 | storing a zero-g and a 1g triple and decoding gives the zero triple and the wrapped difference |
| Accel.WrapInjective | src/io.c:408-410 | subtracting the same zero value from two different 10-bit readings gives different 16-bit cal_g values |
| Accel.DecodeZeros | src/io.c:388 | eight zero bytes decode to an all-zero calibration |
| Accel.DecodeReadsByte7 | src/io.c:408-410 | byte 7 matters: flipping bit 4 of it changes cal_g.x |
| DeviceHandshake.ZeroPrefix | src/io.c:388 | the first 8 bytes become zero and the rest of the buffer is unchanged |
| DeviceHandshake.Complete | src/io.c:404-421 | completion clears HANDSHAKE, sets HANDSHAKE_COMPLETE, stores the decoded calibration, raises CONNECT, keeps the cursor and sends a status request without callback |
| DeviceHandshake.Probe | src/io.c:385-397 | the body of case 2: with the Wii U Pro ID it sets WIIU_PRO, completes with an all-zero calibration, keeps the cursor and appends the status request; otherwise it only advances the cursor by one and appends the calibration read |
| DeviceHandshake.StepWith | src/io.c:358-421 | the cursor never decreases. Only state, flags, event and calibration change, and no expansion flag changes. The call completes iff it ends with the callback-less status request. Completion clears HANDSHAKE and sets HANDSHAKE_COMPLETE and CONNECT; otherwise only the cursor moves |
| DeviceHandshake.HandshakeWith | src/io.c:349-354 | a NULL device gives no transition and no request; otherwise the cursor never decreases |
| DeviceHandshake.Handshake | src/io.c:349-421 | the handshake with the calibration read covering the 8 decoded bytes: NULL is a no-op, and the cursor never decreases |
| DeviceHandshake.HandshakeAsWritten | src/io.c:369-396 | the handshake with the 7-byte calibration read: NULL is a no-op, and the cursor never decreases |
| DeviceHandshake.NonCompletingTransitions | src/io.c:361-396 | for any calibration read length, 7 as written included: 0→1 clears the LEDs and requests status. 1→2 with an attachment reads 6 bytes at WM_EXP_ID. 1→4 without one, falling through into case 2, issues the calibration read twice. 2→3 issues it once |
| DeviceHandshake.LateCallCompletes | src/io.c:398-421 | for any read length, past state 2 a call decodes the buffer, swaps HANDSHAKE for HANDSHAKE_COMPLETE, keeps the cursor and sends one status request |
| DeviceHandshake.WiiuProCompletesWithZeroCalibration | src/io.c:385-391 | on the Wii U Pro path the WIIU_PRO flag is set and every calibration value is zero |
| DeviceHandshake.WiiuProTransitions | src/io.c:379-421 | for any read length, a Wii U Pro found on the case-1 fall-through ends at cursor 3 after sending the calibration read and then the status request; found in case 2 it keeps cursor 2 and sends only the status request |
| DeviceHandshake.HandshakeKeepsExpFlagsExclusive | src/io.c:417-418 | the device handshake keeps EXP and EXP_HANDSHAKE from being set together |
| DeviceHandshake.RunWithoutExpansion | src/io.c:361-421 | from state 0, no attachment, for any read length (7 as written): three calls send status, calibration, calibration, status, and complete at state 4 with the decoded calibration |
| DeviceHandshake.RunWiiuPro | src/io.c:361-421 | from state 0 with a Wii U Pro attached: status, ID read, then completion at state 2 with WIIU_PRO set and a zero calibration |
| DeviceHandshake.RunInvariants | src/io.c:358-421 | over any sequence of calls, with either read length, the cursor never decreases, a completed handshake stays completed, and the expansion flags, cursor, kind and classic record are untouched |
| DeviceHandshake.Fill | src/io.c:384 | after a read of n bytes, the first n bytes come from the device and the rest keep the old buffer contents |
| DeviceHandshake.AsWrittenReadIsShort | src/io.c:395 | as written, the calibration request asks for 7 bytes, fewer than the 8 the decode reads |
| DeviceHandshake.AsWrittenDecodesUnreadByte | src/io.c:408-410 | as written, two buffers differing only in unread byte 7 give different cal_g for the same device reply |
| DeviceHandshake.CorrectedDecodesOnlyReadBytes | src/io.c:404-410 | with an 8-byte read the calibration depends only on the device reply |
| ExpansionHandshake.Route | src/io.c:465-494 | the nunchuk ID goes to the nunchuk arm; with valid headers an ID goes to the classic arm exactly when it is none of the nunchuk, guitar and balance board IDs, and those go to their own arms |
| ExpansionHandshake.Dispatch | src/io.c:462-505 | state 3 on a block keeps both cursors. A nunchuk, guitar or board ID either attaches or changes nothing. A classic ID on retry keeps the flags and re-reads the block for the expansion event handler; otherwise it attaches a classic controller with CLASSIC_CTRL_INSERTED |
| ExpansionHandshake.RouteClassicIff | src/io.c:465-494 | an ID goes to the classic handler iff it is none of the nunchuk, guitar and balance board codes; those three go to their own handlers |
| ExpansionHandshake.Attach | src/io.c:501-504 | success swaps EXP_HANDSHAKE for EXP and changes nothing else on the device (cursors, calibration, kind, event and classic record are kept), leaves the flags exclusive, and sends IR-mode and status requests |
| ExpansionHandshake.Step | src/io.c:434-507 | states 0..2 advance the cursor by one with one request and change nothing else. State 3 keeps the cursor. State 3 with NULL or empty data is a no-op. Flags either stay or swap EXP_HANDSHAKE for EXP, and a swap always sends IR-mode and status requests |
| ExpansionHandshake.SetupSteps | src/io.c:442-457 | state 0 writes 0x55 to WM_EXP_MEM_ENABLE1, state 1 writes 0x00 to WM_EXP_MEM_ENABLE2, state 2 reads EXP_HANDSHAKE_LEN bytes at WM_EXP_MEM_CALIBR |
| ExpansionHandshake.FailedPeripheralIsNoOp | src/io.c:466-484 | a nunchuk, guitar or balance board handler returning 0 leaves the device unchanged and sends nothing |
| ExpansionHandshake.PeripheralSuccessAttaches | src/io.c:466-504 | a nunchuk, guitar or balance board handler returning 1 attaches the expansion: EXP_HANDSHAKE is swapped for EXP and IR-mode and status requests are sent |
| ExpansionHandshake.ClassicRetryKeepsState | src/io.c:475-476 | a classic retry keeps cursor, flags and everything but the classic record, and re-reads the block for the expansion event handler |
| ExpansionHandshake.ClassicDoneAttaches | src/io.c:475-504 | an accepted classic block sets EXP, clears EXP_HANDSHAKE, sets kind classic and CLASSIC_CTRL_INSERTED, installs the decoded record and keeps the cursor at 3 |
| ExpansionHandshake.Start | src/io.c:424-432 | a no-op if EXP, EXP_FAILED or EXP_HANDSHAKE is set; otherwise EXP_HANDSHAKE is set, the cursor ends at 1 and the first enable write is sent |
| ExpansionHandshake.RemovedEvent | src/io.c:512-537 | each expansion kind raises the removal event that names it; no kind raises none |
| ExpansionHandshake.DisableExpansion | src/io.c:509-545 | a no-op unless EXP is set. Otherwise EXP is cleared, the kind becomes none, and the kind's removal event is raised. The classic record is zeroed only for a classic controller. Nothing else changes: cursors, other flags and the accelerometer calibration are kept. IR-mode and status requests are sent |
| ExpansionHandshake.ExpFlagsStayExclusive | src/io.c:424-545 | start, every expansion step and removal keep EXP and EXP_HANDSHAKE from being set together |
| ExpansionHandshake.ClassicInsertionRun | src/io.c:424-507 | start plus three completions with an accepted classic block send the two writes, the read, IR-mode and status, and end attached as a classic controller |
| ExpansionHandshake.RunInvariants | src/io.c:434-507 | over any sequence of calls the cursor only moves forward within 0..3, EXP and EXP_HANDSHAKE are never both set, and an attached expansion stays attached |
| ReadSync.SpaceByte | src/io.c:196 | the first packet byte is 0x00 or 0x04, and 0x00 exactly when memory is non-zero |
| ReadSync.ReadPacket | src/io.c:193-199 | the packet is 6 bytes and starts with the address-space byte |
| ReadSync.ReadPacketRoundTrip | src/io.c:193-199 | the packet carries the address space, the address's low 24 bits and the size, big-endian |
| ReadSync.ChunkSplit | src/io.c:208-209 | full reports times 16 plus the last report's bytes is the size, and the last part is below 16 |
| ReadSync.Reassemble | src/io.c:208-232 | the output is `size` bytes, and byte k is byte k mod 16 of the payload (offset 6) of report k div 16 |
| ReadSync.WaitCode | src/io.c:132-163 | the wait result is never 0, and positive exactly when the report arrived |
| ReadSync.CountArrived | src/io.c:211-221 | the full-report loop copies the reports up to the first timeout, and the next one timed out |
| ReadSync.PassAsWritten | src/io.c:205-234 | as written, one pass copies the full reports up to the first timeout: every copied report arrived, and if it stopped early the next one timed out |
| ReadSync.PassAsWrittenAlwaysDone | src/io.c:226-233 | as written, every pass ends the loop, whatever times out |
| ReadSync.PassAsWrittenGivesUpOnTimeout | src/io.c:211-233 | as written, a 16-byte read whose report times out ends with nothing copied |
| ReadSync.ReadPass | src/io.c:205-234 | corrected, one pass copies the full reports up to the first timeout, and it ends the loop only when all full reports were copied |
| ReadSync.PassDoneIffAllArrived | src/io.c:205-234 | corrected, the loop ends iff every report of the reply arrived |

## Left out

- `src/os_wii.c`: the Bluetooth transport, its callbacks and its clock.
- `wiiuse_find`, `wiiuse_connect`, `wiiuse_disconnect`: thin wrappers over the OS layer.
- `wiiuse_wait_report`: the polling, the discarding of other reports and the timeout, which need a clock. Only its return codes (1 or -1) are kept.
- The loop of `wiiuse_read_data_sync`: sending, waiting and re-sending. Only the packet, the chunk split, the reassembly of arrived reports and the pass-ends decision are kept.
- The `WIIUSE_SYNC_HANDSHAKE` build of `wiiuse_handshake`: a blocking, sleep-driven alternative chosen at build time.
- `calc_joystick_state` and the float shoulder levels are not part of this model. Stick values are handed over raw, and shoulders are stored as the numerator over 0x1F.
- Classic.Event: states the shoulder fields as the raw numerator `n`, not the float `n / 0x1F` the code stores.
- `nunchuk_handshake`, `guitar_hero_3_handshake`, `wii_board_handshake` and the matching `*_disconnected` functions are not part of this model. Their handshakes are predicates on the block (`Peripherals`), and their effects on their own records and on `exp.type` are not modelled.
- ExpansionHandshake.Step: a successful nunchuk, guitar or balance board handshake is stated to attach the expansion (flags and requests). The `exp.type` and event those handlers set inside their own files are not modelled.
- ExpansionHandshake.DisableExpansion: for the expansions other than the classic controller, the reset of their records is not modelled.
- Accel.Decode: `struct accel_t` is not part of this model. The calibration fields are taken to be 16-bit unsigned, so `cal_g` is stored modulo 2^16.
- `malloc`/`free` of handshake buffers: buffer ownership is not modelled. Buffers are sequences that are at least as long as what the code reads.
- The callback data of the two enable writes: the expansion handshake ignores it in states 0..2, and so does the model.
- `wiiuse_disable_motion_plus1` and `wiiuse_disable_motion_plus2`: static functions that nothing calls.
- The numeric values of the header constants: they are defined in headers that are not part of this model.
- The `WIIUSE_WIN32` timeout reset in the classic handshake: platform-specific and outside the modelled state.
- The GEKKO spelling of the big-endian button read (`BIG_ENDIAN_SHORT`): it reads the same two bytes in the same order.

## Findings

| source | as written | input that shows it | evidently intended | confidence | as-written member | corrected member |
|---|---|---|---|---|---|---|
| src/io.c:384 | The accelerometer calibration is requested with length 7 (also at io.c:395), but the decode reads `data[7]` for the low bits of all three `cal_g` values (io.c:408-410). | Any reply: byte 7 of the 8-byte buffer is never written by the read, and flipping bit 4 there changes `cal_g.x`. | Read 8 bytes, so that the calibration depends only on the device. | not executed; high | DeviceHandshake.AsWrittenDecodesUnreadByte | DeviceHandshake.CorrectedDecodesOnlyReadBytes |
| src/io.c:229 | `if (rc) done = 1;` while `wiiuse_wait_report` returns only 1 or -1; a timeout in the full-report loop breaks out but the pass still ends the loop. | size = 16 and the only report times out: the loop ends with no byte copied. | End the loop only when every wait succeeded, so that a timeout re-sends the read as the comment at io.c:217 says. | not executed; medium | ReadSync.PassAsWrittenAlwaysDone | ReadSync.PassDoneIffAllArrived |

=== FILE: accel.dfy ===
/** Accelerometer calibration decoding at the end of the asynchronous
    handshake (`wiiuse_handshake` in src/io.c). Each axis value is 10 bits: a
    high byte shifted left twice and two low bits taken from a shared trailer
    byte (bits 5:4 for x, 3:2 for y, 1:0 for z). The C expression is computed
    in `int`; since the low two bits of `hi << 2` are zero, `|` is `+` there,
    which is how it is written below. The calibration fields are taken to be
    16-bit unsigned (`struct accel_t` is not part of this model), so the
    gravity difference is stored modulo 2^16. */
module Accel {
  import opened Bytes

  /** `vec3w_t`: one value per axis, each held as an integer. */
  datatype Vec3w = Vec3w(x: int, y: int, z: int)

  /** The zero-g reading and the 1g-minus-zero difference per axis. */
  datatype AccelCalib = AccelCalib(calZero: Vec3w, calG: Vec3w)

  /** The decode reads bytes 0..7 of the buffer. */
  const AccelCalibLen := 8

  const WordModulus := 0x1_0000

  predicate Is10Bit(v: Vec3w)
  {
    0 <= v.x < 1024 && 0 <= v.y < 1024 && 0 <= v.z < 1024
  }

  predicate IsWord(v: Vec3w)
  {
    0 <= v.x < WordModulus && 0 <= v.y < WordModulus && 0 <= v.z < WordModulus
  }

  /** `(hi << 2) | lo2` for a two-bit `lo2`. */
  function Ten(hi: byte, lo2: byte): (v: int)
    requires lo2 < 4
    ensures 0 <= v < 1024
    ensures v / 4 == hi as int
    ensures v % 4 == lo2 as int
  {
    (hi as int) * 4 + (lo2 as int)
  }

  /** The two-bit fragments of a trailer byte. */
  function FragX(t: byte): (f: byte) ensures f < 4 { (t >> 4) & 3 }
  function FragY(t: byte): (f: byte) ensures f < 4 { (t >> 2) & 3 }
  function FragZ(t: byte): (f: byte) ensures f < 4 { t & 3 }

  /** The 10-bit triple stored as bytes `at`, `at+1`, `at+2` with trailer
      byte `at+3`. */
  function Triple(data: seq<byte>, at: nat): (v: Vec3w)
    requires at + 4 <= |data|
    ensures Is10Bit(v)
    ensures v.x / 4 == data[at] as int && v.y / 4 == data[at + 1] as int && v.z / 4 == data[at + 2] as int
    ensures v.x % 4 == FragX(data[at + 3]) as int && v.y % 4 == FragY(data[at + 3]) as int
      && v.z % 4 == FragZ(data[at + 3]) as int
  {
    Vec3w(
      Ten(data[at], FragX(data[at + 3])),
      Ten(data[at + 1], FragY(data[at + 3])),
      Ten(data[at + 2], FragZ(data[at + 3])))
  }

  /** Assignment of an `int` to a 16-bit unsigned field. */
  function Wrap(v: int): (r: int)
    ensures 0 <= r < WordModulus
    ensures (r - v) % WordModulus == 0
  {
    v % WordModulus
  }

  /** Bytes 0..3 hold the zero-g triple, bytes 4..7 the 1g triple; `cal_g`
      is the 1g reading minus the zero reading, so adding the zero reading
      back (modulo 2^16) recovers the 1g reading. */
  function Decode(data: seq<byte>): (c: AccelCalib)
    requires |data| >= AccelCalibLen
    ensures c.calZero == Triple(data, 0)
    ensures IsWord(c.calG)
    ensures var one := Triple(data, 4);
      Wrap(c.calG.x + c.calZero.x) == one.x && Wrap(c.calG.y + c.calZero.y) == one.y
      && Wrap(c.calG.z + c.calZero.z) == one.z
  {
    var zero := Triple(data, 0);
    var one := Triple(data, 4);
    WrapUndoesSub(one.x, zero.x);
    WrapUndoesSub(one.y, zero.y);
    WrapUndoesSub(one.z, zero.z);
    AccelCalib(zero, Vec3w(Wrap(one.x - zero.x), Wrap(one.y - zero.y), Wrap(one.z - zero.z)))
  }

  /** Wrapped subtraction is undone by wrapped addition. */
  lemma WrapUndoesSub(a: int, b: int)
    requires 0 <= a < WordModulus
    ensures Wrap(Wrap(a - b) + b) == a
  {
    var k := (a - b) / WordModulus;
    assert Wrap(a - b) == a - b - k * WordModulus;
    assert Wrap(a - b) + b == a + (-k) * WordModulus;
  }

  /** The trailer byte carrying three two-bit fragments. */
  function Trailer(fx: byte, fy: byte, fz: byte): (t: byte)
    requires fx < 4 && fy < 4 && fz < 4
    ensures FragX(t) == fx && FragY(t) == fy && FragZ(t) == fz
  {
    (fx << 4) | (fy << 2) | fz
  }

  /** The four bytes that store a triple: three high bytes and the
      trailer. */
  function EncodeTriple(hi: seq<byte>, fx: byte, fy: byte, fz: byte): (s: seq<byte>)
    requires |hi| == 3 && fx < 4 && fy < 4 && fz < 4
    ensures |s| == 4
  {
    hi + [Trailer(fx, fy, fz)]
  }

  /** Reading back a stored triple gives the 10-bit values assembled from
      the stored high bytes and fragments. */
  lemma TripleRoundTrip(hi: seq<byte>, fx: byte, fy: byte, fz: byte)
    requires |hi| == 3 && fx < 4 && fy < 4 && fz < 4
    ensures Triple(EncodeTriple(hi, fx, fy, fz), 0) == Vec3w(Ten(hi[0], fx), Ten(hi[1], fy), Ten(hi[2], fz))
  {
  }

  /** Storing a zero-g and a 1g triple and decoding them gives back the
      zero triple and the wrapped difference. */
  lemma DecodeEncode(zero: seq<byte>, one: seq<byte>, zx: byte, zy: byte, zz: byte, gx: byte, gy: byte, gz: byte)
    requires |zero| == 3 && |one| == 3
    requires zx < 4 && zy < 4 && zz < 4 && gx < 4 && gy < 4 && gz < 4
    ensures var z := Vec3w(Ten(zero[0], zx), Ten(zero[1], zy), Ten(zero[2], zz));
      var g := Vec3w(Ten(one[0], gx), Ten(one[1], gy), Ten(one[2], gz));
      Decode(EncodeTriple(zero, zx, zy, zz) + EncodeTriple(one, gx, gy, gz))
        == AccelCalib(z, Vec3w(Wrap(g.x - z.x), Wrap(g.y - z.y), Wrap(g.z - z.z)))
  {
    var s := EncodeTriple(zero, zx, zy, zz) + EncodeTriple(one, gx, gy, gz);
    assert s[..4] == EncodeTriple(zero, zx, zy, zz) && s[4..] == EncodeTriple(one, gx, gy, gz);
    TripleRoundTrip(zero, zx, zy, zz);
    TripleRoundTrip(one, gx, gy, gz);
    assert Triple(s, 0) == Triple(EncodeTriple(zero, zx, zy, zz), 0);
    assert Triple(s, 4) == Triple(EncodeTriple(one, gx, gy, gz), 0);
  }

  /** An all-zero buffer decodes to an all-zero calibration. */
  lemma DecodeZeros(data: seq<byte>)
    requires |data| >= AccelCalibLen
    requires forall i :: 0 <= i < AccelCalibLen ==> data[i] == 0
    ensures Decode(data) == AccelCalib(Vec3w(0, 0, 0), Vec3w(0, 0, 0))
  {
  }

  /** Byte 7 feeds the low bits of the gravity values: changing one of its
      bits changes `cal_g.x`. */
  lemma DecodeReadsByte7(data: seq<byte>)
    requires |data| >= AccelCalibLen
    ensures Decode(data[7 := data[7] ^ 0x10]).calG.x != Decode(data).calG.x
  {
    var d' := data[7 := data[7] ^ 0x10];
    assert FragX(d'[7]) != FragX(data[7]);
    assert Triple(d', 4).x != Triple(data, 4).x;
    assert Triple(d', 0) == Triple(data, 0);
    WrapInjective(Triple(d', 4).x, Triple(data, 4).x, Triple(data, 0).x);
  }

  /** Subtracting the same 10-bit value from two different 10-bit values
      leaves different 16-bit results. */
  lemma WrapInjective(a: int, b: int, z: int)
    requires 0 <= a < 1024 && 0 <= b < 1024 && 0 <= z < 1024 && a != b
    ensures Wrap(a - z) != Wrap(b - z)
  {
    assert Wrap(a - z) == if a >= z then a - z else a - z + WordModulus;
    assert Wrap(b - z) == if b >= z then b - z else b - z + WordModulus;
  }
}

=== FILE: buttons.dfy ===
/** Button edge tracking of the classic controller
    (`classic_ctrl_pressed_buttons`). Each button is one bit of a 16-bit word;
    a set of buttons is a word and the set operations are bitwise. */
module ButtonEdges {
  import opened Bytes

  /** The three button words of the record: pressed now, held (pressed in
      this report and the previous one) and released (pressed in the previous
      report, not in this one). */
  datatype Buttons = Buttons(btns: word, held: word, released: word)

  /** The raw word is active-low: a known button is pressed exactly when its
      raw bit is 0, and bits outside the known set are never pressed. */
  function Pressed(buttonAll: word, raw: word): (now: word)
    ensures now & !buttonAll == 0
    ensures now & raw == 0
    ensures (now | raw) & buttonAll == buttonAll
  {
    !raw & buttonAll
  }

  /** Pressed in both reports. */
  function Held(prev: word, now: word): (held: word)
    ensures held & !now == 0 && held & !prev == 0
    ensures (prev & now) & !held == 0
  {
    now & prev
  }

  /** The code computes the released set from the previous pressed set
      together with the freshly computed held set; since held buttons were
      pressed before, this is exactly "pressed before, not pressed now". */
  function Released(prev: word, now: word): (released: word)
    ensures released & now == 0
    ensures released & !prev == 0
    ensures (prev & !now) & !released == 0
  {
    (prev | Held(prev, now)) & !now
  }

  /** `classic_ctrl_pressed_buttons` on the button words of the record. */
  function PressedButtons(buttonAll: word, prev: Buttons, raw: word): (r: Buttons)
    ensures r.btns == Pressed(buttonAll, raw)
    ensures r.held == Held(prev.btns, r.btns)
    ensures r.released == Released(prev.btns, r.btns)
    ensures (r.held | r.released) == prev.btns && r.held & r.released == 0
  {
    var now := Pressed(buttonAll, raw);
    HeldAndReleasedSplitPrevious(prev.btns, now);
    Buttons(now, Held(prev.btns, now), Released(prev.btns, now))
  }

  /** Every button pressed before is now either held or released, never both. */
  lemma HeldAndReleasedSplitPrevious(prev: word, now: word)
    ensures (Held(prev, now) | Released(prev, now)) == prev
    ensures Held(prev, now) & Released(prev, now) == 0
  {
  }

  lemma SamePressedSet(x: word)
    ensures Held(x, x) == x && Released(x, x) == 0
  {
  }

  /** Feeding the same raw word twice: everything pressed is held, nothing is
      released. */
  lemma RepeatedReportHoldsAll(buttonAll: word, prev: Buttons, raw: word)
    ensures var r := PressedButtons(buttonAll, PressedButtons(buttonAll, prev, raw), raw);
      r.held == r.btns && r.released == 0
  {
    SamePressedSet(Pressed(buttonAll, raw));
  }

  /** Two buttons pressed, then only the first: the first is held, the second
      released. */
  lemma EdgeExample(buttonAll: word, prev: Buttons)
    requires buttonAll & 0x3 == 0x3
    requires prev.btns == 0x3
    ensures PressedButtons(buttonAll, prev, !0x1) == Buttons(0x1, 0x1, 0x2)
  {
  }
}

=== FILE: bytes.dfy ===
/** Fixed-width integers of the wire protocol and big-endian packing.
    `byte` is the C `byte`/`ubyte`, `word` a 16-bit value (`short`, `uint16_t`,
    `uword`: only the bit pattern matters), `dword` a 32-bit value
    (`unsigned int` addresses and `int` peripheral ID codes). */
module Bytes {

  type byte = bv8
  type word = bv16
  type dword = bv32

  /** The byte `w >> 8`. */
  function HighByte(w: word): byte
  {
    (w >> 8) as byte
  }

  /** The byte `w & 0xFF`. */
  function LowByte(w: word): byte
  {
    (w & 0xFF) as byte
  }

  /** `from_big_endian_uint16_t`: most significant byte first. */
  function BigEndian16(hi: byte, lo: byte): (w: word)
    ensures HighByte(w) == hi && LowByte(w) == lo
  {
    ((hi as word) << 8) | (lo as word)
  }

  /** Every word is the big-endian reading of its two bytes. */
  lemma BigEndian16Split(w: word)
    ensures BigEndian16(HighByte(w), LowByte(w)) == w
  {
  }

  /** `BIG_ENDIAN_LONG(*(int*)&s[at])`: four bytes, most significant first. */
  function BigEndian32(s: seq<byte>, at: nat): (d: dword)
    requires at + 4 <= |s|
    ensures (d >> 24) as byte == s[at]
    ensures ((d >> 16) & 0xFF) as byte == s[at + 1]
    ensures ((d >> 8) & 0xFF) as byte == s[at + 2]
    ensures (d & 0xFF) as byte == s[at + 3]
  {
    ((s[at] as dword) << 24) | ((s[at + 1] as dword) << 16) | ((s[at + 2] as dword) << 8) | (s[at + 3] as dword)
  }

  /** `to_big_endian_uint16_t`. */
  function ToBigEndian16(w: word): (s: seq<byte>)
    ensures |s| == 2 && BigEndian16(s[0], s[1]) == w
  {
    BigEndian16Split(w);
    [HighByte(w), LowByte(w)]
  }

  /** `to_big_endian_uint32_t`. */
  function ToBigEndian32(d: dword): (s: seq<byte>)
    ensures |s| == 4 && BigEndian32(s, 0) == d
  {
    [(d >> 24) as byte, ((d >> 16) & 0xFF) as byte, ((d >> 8) & 0xFF) as byte, (d & 0xFF) as byte]
  }
}

=== FILE: calibration.dfy ===
/** Joystick calibration of the classic controller and its per-axis repair
    (`fix_bad_calibration_values`). */
module Calibration {
  import opened Bytes

  datatype Vec2b = Vec2b(x: byte, y: byte)

  /** `struct joystick_t`, calibration part only. */
  datatype Joystick = Joystick(max: Vec2b, min: Vec2b, center: Vec2b)

  datatype AxisId = X | Y

  /** The three calibration values of one axis. */
  datatype Range = Range(min: byte, center: byte, max: byte)

  function Axis(js: Joystick, a: AxisId): Range
  {
    match a
    case X => Range(js.min.x, js.center.x, js.max.x)
    case Y => Range(js.min.y, js.center.y, js.max.y)
  }

  function WithAxis(js: Joystick, a: AxisId, r: Range): (js': Joystick)
    ensures Axis(js', a) == r
    ensures forall b :: b != a ==> Axis(js', b) == Axis(js, b)
  {
    match a
    case X => Joystick(js.max.(x := r.max), js.min.(x := r.min), js.center.(x := r.center))
    case Y => Joystick(js.max.(y := r.max), js.min.(y := r.min), js.center.(y := r.center))
  }

  /** A usable axis: the center lies strictly between the extremes. */
  predicate ValidRange(r: Range)
  {
    r.min < r.center < r.max
  }

  predicate Valid(js: Joystick)
  {
    ValidRange(Axis(js, X)) && ValidRange(Axis(js, Y))
  }

  /** The safe default: the right stick has half the range of the left one. */
  function DefaultRange(rightStick: bool): (r: Range)
    ensures ValidRange(r)
  {
    if rightStick then Range(0, 16, 32) else Range(0, 32, 64)
  }

  function FixAxis(r: Range, rightStick: bool): (r': Range)
    ensures ValidRange(r')
    ensures ValidRange(r) ==> r' == r
    ensures !ValidRange(r) ==> r' == DefaultRange(rightStick)
  {
    if r.min >= r.center || r.max <= r.center then DefaultRange(rightStick) else r
  }

  /** `fix_bad_calibration_values`: each axis is checked on its own; a bad axis
      is replaced wholesale by the default, a good one is kept. */
  function FixBadCalibration(js: Joystick, rightStick: bool): (r: Joystick)
    ensures Valid(r)
    ensures forall a :: ValidRange(Axis(js, a)) ==> Axis(r, a) == Axis(js, a)
    ensures forall a :: !ValidRange(Axis(js, a)) ==> Axis(r, a) == DefaultRange(rightStick)
  {
    var fx := WithAxis(js, X, FixAxis(Axis(js, X), rightStick));
    WithAxis(fx, Y, FixAxis(Axis(js, Y), rightStick))
  }

  /** Repair changes nothing on a valid joystick. */
  lemma FixValidUnchanged(js: Joystick, rightStick: bool)
    requires Valid(js)
    ensures FixBadCalibration(js, rightStick) == js
  {
    var r := FixBadCalibration(js, rightStick);
    assert Axis(r, X) == Axis(js, X) && Axis(r, Y) == Axis(js, Y);
  }

  /** Repairing twice is repairing once. */
  lemma FixIdempotent(js: Joystick, rightStick: bool)
    ensures FixBadCalibration(FixBadCalibration(js, rightStick), rightStick) == FixBadCalibration(js, rightStick)
  {
    FixValidUnchanged(FixBadCalibration(js, rightStick), rightStick);
  }
}

=== FILE: classic.dfy ===
/** The classic controller expansion: calibration handshake, report decoding
    and button edge tracking (src/classic.c). The floating-point joystick
    normalisation `calc_joystick_state` is not part of this model; a decoded
    report hands it the raw stick values as a `Sticks` record. */
module Classic {
  import opened Bytes
  import opened Wire
  import opened Calibration
  import opened ButtonEdges

  /** `struct classic_ctrl_t`. The shoulder levels `l_shoulder` and
      `r_shoulder` are C floats `n / 0x1F`; the record keeps the numerator
      `n`, so the float division itself is not modelled. `typ` is 0 or 1 for
      a controller read through its calibration block and 2 for a Wii U Pro
      controller. */
  datatype ClassicCtrl = ClassicCtrl(
    buttons: Buttons,
    rShoulder: byte,
    lShoulder: byte,
    lsRaw: byte,
    rsRaw: byte,
    ljs: Joystick,
    rjs: Joystick,
    typ: int)

  const ZeroStick := Joystick(Vec2b(0, 0), Vec2b(0, 0), Vec2b(0, 0))

  /** `classic_ctrl_disconnected`: the whole record is zeroed. */
  function Disconnected(cc: ClassicCtrl): (r: ClassicCtrl)
    ensures r.buttons == Buttons(0, 0, 0)
    ensures r.rShoulder == 0 && r.lShoulder == 0 && r.lsRaw == 0 && r.rsRaw == 0
    ensures forall a :: Axis(r.ljs, a) == Range(0, 0, 0) && Axis(r.rjs, a) == Range(0, 0, 0)
    ensures r.typ == 0
  {
    ClassicCtrl(Buttons(0, 0, 0), 0, 0, 0, 0, ZeroStick, ZeroStick, 0)
  }

  // ---------------------------------------------------------------------------
  // Report layouts

  /** The fields of a report for `typ` 0 or 1: 6-bit left stick, 5-bit right
      stick and shoulders, and the active-low button word. */
  datatype OriginalReport = OriginalReport(buttons: word, lx: byte, ly: byte, rx: byte, ry: byte, l: byte, r: byte)

  predicate InOriginalRange(f: OriginalReport)
  {
    f.lx <= 0x3F && f.ly <= 0x3F && f.rx <= 0x1F && f.ry <= 0x1F && f.l <= 0x1F && f.r <= 0x1F
  }

  /** Bytes 0..3 pack the sticks and shoulders; bytes 4..5 are the big-endian
      button word. */
  function DecodeOriginal(msg: seq<byte>): (f: OriginalReport)
    requires |msg| >= 6
    ensures InOriginalRange(f)
    ensures f.buttons == BigEndian16(msg[4], msg[5])
  {
    OriginalReport(
      BigEndian16(msg[4], msg[5]),
      msg[0] & 0x3F,
      msg[1] & 0x3F,
      ((msg[0] & 0xC0) >> 3) | ((msg[1] & 0xC0) >> 5) | ((msg[2] & 0x80) >> 7),
      msg[2] & 0x1F,
      ((msg[2] & 0x60) >> 2) | ((msg[3] & 0xE0) >> 5),
      msg[3] & 0x1F)
  }

  /** The controller side of the same layout: where each field's bits go. */
  function EncodeOriginal(f: OriginalReport): (msg: seq<byte>)
    requires InOriginalRange(f)
    ensures |msg| == 6
  {
    [ ((f.rx >> 3) << 6) | f.lx,
      (((f.rx >> 1) & 3) << 6) | f.ly,
      ((f.rx & 1) << 7) | (((f.l >> 3) & 3) << 5) | f.ry,
      ((f.l & 7) << 5) | f.r,
      HighByte(f.buttons),
      LowByte(f.buttons) ]
  }

  lemma OriginalDecodeEncode(f: OriginalReport)
    requires InOriginalRange(f)
    ensures DecodeOriginal(EncodeOriginal(f)) == f
  {
    BigEndian16Split(f.buttons);
  }

  /** Every bit of the six bytes belongs to exactly one field. */
  lemma OriginalEncodeDecode(msg: seq<byte>)
    requires |msg| == 6
    ensures EncodeOriginal(DecodeOriginal(msg)) == msg
  {
  }

  /** The fields of a report for `typ` 2: four 12-bit stick values and the
      button word at bytes 8..9. */
  datatype ProReport = ProReport(buttons: word, lx: word, rx: word, ly: word, ry: word)

  predicate InProRange(f: ProReport)
  {
    f.lx < 4096 && f.rx < 4096 && f.ly < 4096 && f.ry < 4096
  }

  /** `(lo >> 4) | (hi << 4)`: the high nibble of the first byte and the
      whole second byte. */
  function Axis12(lo: byte, hi: byte): (v: word)
    ensures v < 4096
    ensures v >> 4 == hi as word
    ensures v & 0xF == (lo >> 4) as word
  {
    ((lo >> 4) as word) | ((hi as word) << 4)
  }

  function DecodePro(msg: seq<byte>): (f: ProReport)
    requires |msg| >= 10
    ensures InProRange(f)
    ensures f.buttons == BigEndian16(msg[8], msg[9])
  {
    ProReport(
      BigEndian16(msg[8], msg[9]),
      Axis12(msg[0], msg[1]),
      Axis12(msg[2], msg[3]),
      Axis12(msg[4], msg[5]),
      Axis12(msg[6], msg[7]))
  }

  /** A report carrying the given fields; the low nibbles of bytes 0, 2, 4
      and 6 are not read and are sent as zero. */
  function EncodePro(f: ProReport): (msg: seq<byte>)
    requires InProRange(f)
    ensures |msg| == 10
  {
    [ ((f.lx & 0xF) << 4) as byte, (f.lx >> 4) as byte,
      ((f.rx & 0xF) << 4) as byte, (f.rx >> 4) as byte,
      ((f.ly & 0xF) << 4) as byte, (f.ly >> 4) as byte,
      ((f.ry & 0xF) << 4) as byte, (f.ry >> 4) as byte,
      HighByte(f.buttons), LowByte(f.buttons) ]
  }

  lemma ProDecodeEncode(f: ProReport)
    requires InProRange(f)
    ensures DecodePro(EncodePro(f)) == f
  {
    BigEndian16Split(f.buttons);
  }

  // ---------------------------------------------------------------------------
  // Report decoding

  /** The raw stick values handed to the joystick normalisation. */
  datatype Sticks = Sticks(lx: word, ly: word, rx: word, ry: word)

  datatype EventResult = EventResult(cc: ClassicCtrl, sticks: Sticks)

  /** The bytes a report of the controller's layout reads. */
  function ReportLen(typ: int): nat
  {
    if typ == 2 then 10 else 6
  }

  /** `classic_ctrl_event` without the joystick normalisation. For `typ` 2
      the shoulder values are computed from the full-press buttons but the
      jump to `set_state` skips storing them, so the shoulder fields keep
      their previous values. */
  function Event(h: Headers, cc: ClassicCtrl, msg: seq<byte>): (r: EventResult)
    requires |msg| >= ReportLen(cc.typ)
    ensures r.cc.ljs == cc.ljs && r.cc.rjs == cc.rjs && r.cc.typ == cc.typ
    ensures cc.typ == 2 ==>
      && r.cc.buttons == PressedButtons(h.buttonAll, cc.buttons, BigEndian16(msg[8], msg[9]))
      && r.sticks == Sticks(Axis12(msg[0], msg[1]), Axis12(msg[4], msg[5]), Axis12(msg[2], msg[3]), Axis12(msg[6], msg[7]))
      && r.cc.lsRaw == cc.lsRaw && r.cc.rsRaw == cc.rsRaw
      && r.cc.lShoulder == cc.lShoulder && r.cc.rShoulder == cc.rShoulder
    ensures cc.typ != 2 ==>
      && r.cc.buttons == PressedButtons(h.buttonAll, cc.buttons, BigEndian16(msg[4], msg[5]))
      && r.sticks.lx <= 0x3F && r.sticks.ly <= 0x3F && r.sticks.rx <= 0x1F && r.sticks.ry <= 0x1F
      && r.cc.lsRaw <= 0x1F && r.cc.rsRaw <= 0x1F
      && r.cc.lShoulder == r.cc.lsRaw && r.cc.rShoulder == r.cc.rsRaw
  {
    if cc.typ == 2 then
      var f := DecodePro(msg);
      EventResult(
        cc.(buttons := PressedButtons(h.buttonAll, cc.buttons, f.buttons)),
        Sticks(f.lx, f.ly, f.rx, f.ry))
    else
      var f := DecodeOriginal(msg);
      EventResult(
        cc.(buttons := PressedButtons(h.buttonAll, cc.buttons, f.buttons),
            lsRaw := f.l, rsRaw := f.r, rShoulder := f.r, lShoulder := f.l),
        Sticks(f.lx as word, f.ly as word, f.rx as word, f.ry as word))
  }

  /** A report built from known fields decodes back to exactly those fields. */
  lemma OriginalEventRoundTrip(h: Headers, cc: ClassicCtrl, f: OriginalReport)
    requires cc.typ != 2 && InOriginalRange(f)
    ensures var r := Event(h, cc, EncodeOriginal(f));
      && r.sticks == Sticks(f.lx as word, f.ly as word, f.rx as word, f.ry as word)
      && r.cc.lsRaw == f.l && r.cc.rsRaw == f.r
      && r.cc.buttons.btns == !f.buttons & h.buttonAll
      && r.cc.lShoulder == f.l && r.cc.rShoulder == f.r
  {
    OriginalDecodeEncode(f);
  }

  /** A type-2 report built from known 12-bit sticks yields exactly those
      sticks, each from its own byte pair, and the inverted, masked button
      word; the shoulders keep their previous values. */
  lemma ProEventRoundTrip(h: Headers, cc: ClassicCtrl, f: ProReport)
    requires cc.typ == 2 && InProRange(f)
    ensures var r := Event(h, cc, EncodePro(f));
      && r.sticks == Sticks(f.lx, f.ly, f.rx, f.ry)
      && r.cc.buttons.btns == !f.buttons & h.buttonAll
      && r.cc.lShoulder == cc.lShoulder && r.cc.rShoulder == cc.rShoulder
  {
    ProDecodeEncode(f);
  }

  // ---------------------------------------------------------------------------
  // Calibration handshake

  const HandshakeBytesUsed := 12

  /** The calibration a Wii U Pro controller is given on both sticks. */
  const WiiuProStick := Joystick(Vec2b(208, 208), Vec2b(48, 48), Vec2b(0x80, 0x80))

  /** A handshake either asks for the calibration block again or installs
      a calibration. */
  datatype HandshakeOutcome = Retry(cc: ClassicCtrl, reread: Command) | Done(cc: ClassicCtrl)

  /** `data` is the buffer and `len` the number of bytes read into it; the
      code reads `data[0]` before it looks at `len`. */
  predicate Readable(data: seq<byte>, len: nat)
  {
    1 <= |data| && len <= |data|
  }

  predicate IsWiiuPro(data: seq<byte>, len: nat)
    requires Readable(data, len)
  {
    len > 223 && data[223] == 0x20
  }

  /** The first calibration byte is the 0xFF filler, or the block is short. */
  predicate PrimaryInvalid(data: seq<byte>, len: nat)
    requires Readable(data, len)
  {
    data[0] == 0xFF || len < HandshakeBytesUsed
  }

  /** The copy 16 bytes further on is missing or also starts with filler. */
  predicate MirrorInvalid(data: seq<byte>, len: nat)
    requires Readable(data, len)
  {
    len < 17 || len < HandshakeBytesUsed + 16 || data[16] == 0xFF
  }

  /** A calibration byte scaled down; a quotient of zero is replaced by the
      default, so the result is never zero. */
  function Scaled(b: byte, divisor: byte, default: byte): (v: byte)
    requires divisor != 0 && default != 0
    ensures v != 0
    ensures v == b / divisor || (b / divisor == 0 && v == default)
  {
    if b / divisor == 0 then default else b / divisor
  }

  /** Six calibration bytes of one stick at `at`: max, min, center of x then
      of y. The minimum is scaled without the zero rule. */
  function DecodeStick(data: seq<byte>, at: nat, divisor: byte, maxDefault: byte, centerDefault: byte): (js: Joystick)
    requires at + 6 <= |data|
    requires divisor != 0 && maxDefault != 0 && centerDefault != 0
    ensures js.max == Vec2b(Scaled(data[at], divisor, maxDefault), Scaled(data[at + 3], divisor, maxDefault))
    ensures js.min == Vec2b(data[at + 1] / divisor, data[at + 4] / divisor)
    ensures js.center == Vec2b(Scaled(data[at + 2], divisor, centerDefault), Scaled(data[at + 5], divisor, centerDefault))
    ensures js.max.x != 0 && js.max.y != 0 && js.center.x != 0 && js.center.y != 0
  {
    Joystick(
      Vec2b(Scaled(data[at], divisor, maxDefault), Scaled(data[at + 3], divisor, maxDefault)),
      Vec2b(data[at + 1] / divisor, data[at + 4] / divisor),
      Vec2b(Scaled(data[at + 2], divisor, centerDefault), Scaled(data[at + 5], divisor, centerDefault)))
  }

  /** Where the calibration bytes start: 16 when the mirrored copy is used. */
  function CalibrationOffset(data: seq<byte>, len: nat): nat
    requires Readable(data, len)
  {
    if PrimaryInvalid(data, len) then 16 else 0
  }

  /** Left stick as read from the block, before repair (divisor 4). */
  function RawLeftStick(data: seq<byte>, len: nat): Joystick
    requires Readable(data, len) && !(PrimaryInvalid(data, len) && MirrorInvalid(data, len))
  {
    DecodeStick(data, CalibrationOffset(data, len), 4, 64, 32)
  }

  /** Right stick as read from the block, before repair (divisor 8). */
  function RawRightStick(data: seq<byte>, len: nat): Joystick
    requires Readable(data, len) && !(PrimaryInvalid(data, len) && MirrorInvalid(data, len))
  {
    DecodeStick(data, CalibrationOffset(data, len) + 6, 8, 32, 16)
  }

  /** `classic_ctrl_handshake`, the part that concerns the classic record.
      The button fields and shoulder levels are cleared on every path. A Wii U
      Pro signature installs the fixed calibration; a block whose first
      byte and mirrored copy are both unusable asks for the block again and
      leaves the calibration alone; otherwise both sticks are decoded and
      repaired. */
  function Handshake(h: Headers, cc: ClassicCtrl, data: seq<byte>, len: nat): (r: HandshakeOutcome)
    requires Readable(data, len)
    ensures r.cc.buttons == Buttons(0, 0, 0)
    ensures r.cc.rShoulder == 0 && r.cc.lShoulder == 0
    ensures r.cc.lsRaw == cc.lsRaw && r.cc.rsRaw == cc.rsRaw
    ensures r.Retry? <==> !IsWiiuPro(data, len) && PrimaryInvalid(data, len) && MirrorInvalid(data, len)
    ensures r.Retry? ==>
      && r.cc.ljs == cc.ljs && r.cc.rjs == cc.rjs && r.cc.typ == cc.typ
      && r.reread == ReadMem(h.expMemCalibr, h.expHandshakeLen, ToExpansionEvent)
    ensures r.Done? ==> Valid(r.cc.ljs) && Valid(r.cc.rjs)
    ensures IsWiiuPro(data, len) ==> r.cc.ljs == WiiuProStick && r.cc.rjs == WiiuProStick && r.cc.typ == 2
    ensures r.Done? && !IsWiiuPro(data, len) ==>
      && r.cc.typ == (if len > 218 && data[218] != 0 then 1 else 0)
      && (forall a :: ValidRange(Axis(RawLeftStick(data, len), a)) ==> Axis(r.cc.ljs, a) == Axis(RawLeftStick(data, len), a))
      && (forall a :: !ValidRange(Axis(RawLeftStick(data, len), a)) ==> Axis(r.cc.ljs, a) == DefaultRange(false))
      && (forall a :: ValidRange(Axis(RawRightStick(data, len), a)) ==> Axis(r.cc.rjs, a) == Axis(RawRightStick(data, len), a))
      && (forall a :: !ValidRange(Axis(RawRightStick(data, len), a)) ==> Axis(r.cc.rjs, a) == DefaultRange(true))
  {
    var cleared := cc.(buttons := Buttons(0, 0, 0), rShoulder := 0, lShoulder := 0);
    if IsWiiuPro(data, len) then
      Done(cleared.(ljs := WiiuProStick, rjs := WiiuProStick, typ := 2))
    else if PrimaryInvalid(data, len) && MirrorInvalid(data, len) then
      Retry(cleared, ReadMem(h.expMemCalibr, h.expHandshakeLen, ToExpansionEvent))
    else
      Done(cleared.(
        typ := if len > 218 && data[218] != 0 then 1 else 0,
        ljs := FixBadCalibration(RawLeftStick(data, len), false),
        rjs := FixBadCalibration(RawRightStick(data, len), true)))
  }

  /** The 16-byte quirk: a block whose first byte is filler but whose mirror
      is good yields the same calibration as a block that starts with the
      mirrored bytes. */
  lemma MirrorReadsShiftedBlock(h: Headers, cc: ClassicCtrl, data: seq<byte>, len: nat, data2: seq<byte>, len2: nat)
    requires Readable(data, len) && Readable(data2, len2)
    requires !IsWiiuPro(data, len) && !IsWiiuPro(data2, len2)
    requires data[0] == 0xFF && len >= 28 && data[16] != 0xFF
    requires len2 >= 12 && data2[0] != 0xFF
    requires data[16..28] == data2[..12]
    ensures Handshake(h, cc, data, len).cc.ljs == Handshake(h, cc, data2, len2).cc.ljs
    ensures Handshake(h, cc, data, len).cc.rjs == Handshake(h, cc, data2, len2).cc.rjs
  {
    assert forall k :: 0 <= k < 12 ==> data[16 + k] == data2[k] by {
      forall k | 0 <= k < 12 ensures data[16 + k] == data2[k] {
        assert data[16..28][k] == data2[..12][k];
      }
    }
    assert RawLeftStick(data, len) == RawLeftStick(data2, len2);
    assert RawRightStick(data, len) == RawRightStick(data2, len2);
  }
}

=== FILE: device.dfy ===
/** The part of `struct wiimote_t` the handshake code reads and writes. */
module Device {
  import opened Wire
  import Accel
  import Classic

  /** `WIIMOTE_STATE_*` flags used by the handshakes. */
  datatype StateFlag =
    | Handshaking         // WIIMOTE_STATE_HANDSHAKE
    | HandshakeComplete   // WIIMOTE_STATE_HANDSHAKE_COMPLETE
    | WiiuPro             // WIIMOTE_STATE_WIIU_PRO
    | Exp                 // WIIMOTE_STATE_EXP
    | ExpHandshake        // WIIMOTE_STATE_EXP_HANDSHAKE
    | ExpFailed           // WIIMOTE_STATE_EXP_FAILED

  /** `WIIUSE_EVENT_TYPE` values the handshakes raise. */
  datatype EventType =
    | NoEvent
    | Connect
    | ClassicCtrlInserted
    | ClassicCtrlRemoved
    | NunchukRemoved
    | GuitarHero3CtrlRemoved
    | WiiBoardRemoved
    | MotionPlusRemoved

  /** `EXP_*`: the kind of expansion attached. */
  datatype ExpKind = ExpNone | ExpNunchuk | ExpClassic | ExpGuitarHero3 | ExpWiiBoard | ExpMotionPlus

  /** The records of the other expansions are not part of this model; only
      the classic controller's is kept. */
  datatype Wiimote = Wiimote(
    handshakeState: int,
    expansionState: int,
    flags: set<StateFlag>,
    event: EventType,
    accelCalib: Accel.AccelCalib,
    expKind: ExpKind,
    classic: Classic.ClassicCtrl)

  /** The device after a call and the requests the call sent, in order. */
  datatype Transition = Transition(wm: Wiimote, cmds: seq<Command>)

  /** An expansion is never both attached and in its handshake. */
  predicate ExpFlagsExclusive(flags: set<StateFlag>)
  {
    !(Exp in flags && ExpHandshake in flags)
  }
}

=== FILE: expansion.dfy ===
/** The expansion handshake (`wiiuse_handshake_expansion`), its entry guard
    (`wiiuse_handshake_expansion_start`) and expansion removal
    (`wiiuse_disable_expansion`), all in src/io.c. The cursor
    `expansion_state` runs 0 -> 1 -> 2 -> 3: two writes that switch off the
    expansion's encryption, a read of the expansion block, and in state 3
    the dispatch on the expansion ID stored big-endian at bytes 220..223. */
module ExpansionHandshake {
  import opened Bytes
  import opened Wire
  import opened Device
  import Classic

  /** The handshakes of the other expansions live in files that are not
      part of this model; each is a predicate "the handshake succeeded" over
      the buffer and its length. */
  datatype Peripherals = Peripherals(
    nunchuk: (seq<byte>, nat) -> bool,        // nunchuk_handshake
    guitarHero3: (seq<byte>, nat) -> bool,    // guitar_hero_3_handshake
    wiiBoard: (seq<byte>, nat) -> bool)       // wii_board_handshake

  /** The arm of the ID switch that handles an expansion. */
  datatype Handler = NunchukHandler | ClassicHandler | GuitarHandler | WiiBoardHandler

  const EnableValue1: byte := 0x55
  const EnableValue2: byte := 0x00

  /** Where the expansion ID sits in the expansion block. */
  const IdOffset := 220

  /** The switch on the ID: the classic labels and the `default` arm both
      go to the classic controller. */
  function Route(h: Headers, id: dword): (r: Handler)
    ensures id == h.idNunchuk ==> r == NunchukHandler
    ensures h.Valid() ==>
      && (r == ClassicHandler <==> id != h.idNunchuk && id != h.idGuitar && id != h.idWiiBoard)
      && (id == h.idGuitar ==> r == GuitarHandler)
      && (id == h.idWiiBoard ==> r == WiiBoardHandler)
  {
    if id == h.idNunchuk then NunchukHandler
    else if id in h.idClassic then ClassicHandler
    else if id == h.idGuitar then GuitarHandler
    else if id == h.idWiiBoard then WiiBoardHandler
    else ClassicHandler
  }

  /** Every ID other than the nunchuk, guitar and balance board codes is
      handed to the classic controller. */
  lemma RouteClassicIff(h: Headers, id: dword)
    requires h.Valid()
    ensures Route(h, id) == ClassicHandler <==> id != h.idNunchuk && id != h.idGuitar && id != h.idWiiBoard
    ensures id == h.idNunchuk ==> Route(h, id) == NunchukHandler
    ensures id == h.idGuitar ==> Route(h, id) == GuitarHandler
    ensures id == h.idWiiBoard ==> Route(h, id) == WiiBoardHandler
  {
  }

  /** What a call in `state` reads of the buffer: only state 3 with a
      non-NULL, non-empty block reads it, and then up to the ID. */
  predicate BlockReadable(state: int, data: Option<seq<byte>>, len: nat)
  {
    state == 3 && data.Some? && len != 0 ==> |data.value| >= IdOffset + 4 && len <= |data.value|
  }

  /** The requests that close a successful expansion handshake. */
  const Finish := [SetIrMode, RequestStatus(NoCallback)]

  /** A handler succeeded: the expansion is attached, its handshake is over. */
  function Attach(wm: Wiimote): (t: Transition)
    ensures t.wm == wm.(flags := wm.flags - {ExpHandshake} + {Exp})
    ensures ExpFlagsExclusive(t.wm.flags)
    ensures t.cmds == Finish
  {
    Transition(wm.(flags := wm.flags - {ExpHandshake} + {Exp}), Finish)
  }

  /** State 3 with a non-NULL, non-empty block. */
  function Dispatch(h: Headers, p: Peripherals, wm: Wiimote, data: seq<byte>, len: nat): (t: Transition)
    requires |data| >= IdOffset + 4 && len <= |data|
    ensures t.wm.expansionState == wm.expansionState && t.wm.handshakeState == wm.handshakeState
    ensures Route(h, BigEndian32(data, IdOffset)) != ClassicHandler ==>
      t == Attach(wm) || t == Transition(wm, [])
    ensures Route(h, BigEndian32(data, IdOffset)) == ClassicHandler ==>
      if Classic.Handshake(h, wm.classic, data, len).Retry? then
        && t.wm.flags == wm.flags
        && t.cmds == [ReadMem(h.expMemCalibr, h.expHandshakeLen, ToExpansionEvent)]
      else
        && t.wm.flags == wm.flags - {ExpHandshake} + {Exp}
        && t.wm.expKind == ExpClassic && t.wm.event == ClassicCtrlInserted
        && t.cmds == Finish
  {
    match Route(h, BigEndian32(data, IdOffset))
    case NunchukHandler =>
      if p.nunchuk(data, len) then Attach(wm) else Transition(wm, [])
    case GuitarHandler =>
      if p.guitarHero3(data, len) then Attach(wm) else Transition(wm, [])
    case WiiBoardHandler =>
      if p.wiiBoard(data, len) then Attach(wm) else Transition(wm, [])
    case ClassicHandler =>
      match Classic.Handshake(h, wm.classic, data, len)
      case Retry(cc, reread) => Transition(wm.(classic := cc), [reread])
      case Done(cc) => Attach(wm.(classic := cc, event := ClassicCtrlInserted, expKind := ExpClassic))
  }

  /** One call of `wiiuse_handshake_expansion`. */
  function Step(h: Headers, p: Peripherals, wm: Wiimote, data: Option<seq<byte>>, len: nat): (t: Transition)
    requires BlockReadable(wm.expansionState, data, len)
    ensures t.wm.handshakeState == wm.handshakeState && t.wm.accelCalib == wm.accelCalib
    ensures 0 <= wm.expansionState < 3 ==>
      && t.wm == wm.(expansionState := wm.expansionState + 1)
      && |t.cmds| == 1
    ensures wm.expansionState == 3 ==> t.wm.expansionState == 3
    ensures wm.expansionState == 3 && (data.None? || len == 0) ==> t == Transition(wm, [])
    ensures t.wm.flags == wm.flags || t.wm.flags == wm.flags - {ExpHandshake} + {Exp}
    ensures t.wm.flags != wm.flags ==> t.cmds == Finish
  {
    match wm.expansionState
    case 0 =>
      Transition(wm.(expansionState := 1), [WriteMem(h.expMemEnable1, EnableValue1, ToExpansionHandshake)])
    case 1 =>
      Transition(wm.(expansionState := 2), [WriteMem(h.expMemEnable2, EnableValue2, ToExpansionHandshake)])
    case 2 =>
      Transition(wm.(expansionState := 3), [ReadMem(h.expMemCalibr, h.expHandshakeLen, ToExpansionHandshake)])
    case 3 =>
      if data.None? || len == 0 then Transition(wm, [])
      else Dispatch(h, p, wm, data.value, len)
    case _ =>
      Transition(wm, [])
  }

  /** The first three calls: two encryption-disabling writes and the block
      read, each answered back to this handshake. */
  lemma SetupSteps(h: Headers, p: Peripherals, wm: Wiimote, data: Option<seq<byte>>, len: nat)
    requires BlockReadable(wm.expansionState, data, len)
    ensures var t := Step(h, p, wm, data, len);
      && (wm.expansionState == 0 ==> t.cmds == [WriteMem(h.expMemEnable1, 0x55, ToExpansionHandshake)])
      && (wm.expansionState == 1 ==> t.cmds == [WriteMem(h.expMemEnable2, 0x00, ToExpansionHandshake)])
      && (wm.expansionState == 2 ==> t.cmds == [ReadMem(h.expMemCalibr, h.expHandshakeLen, ToExpansionHandshake)])
  {
  }

  /** A handler that reports failure leaves the device as it was and sends
      nothing; the handshake waits for another block. */
  lemma FailedPeripheralIsNoOp(h: Headers, p: Peripherals, wm: Wiimote, data: seq<byte>, len: nat)
    requires |data| >= IdOffset + 4 && len <= |data|
    requires wm.expansionState == 3 && len != 0
    requires var r := Route(h, BigEndian32(data, IdOffset));
      || (r == NunchukHandler && !p.nunchuk(data, len))
      || (r == GuitarHandler && !p.guitarHero3(data, len))
      || (r == WiiBoardHandler && !p.wiiBoard(data, len))
    ensures Step(h, p, wm, Some(data), len) == Transition(wm, [])
  {
  }

  /** A nunchuk, guitar or balance board handler that reports success
      attaches the expansion. */
  lemma PeripheralSuccessAttaches(h: Headers, p: Peripherals, wm: Wiimote, data: seq<byte>, len: nat)
    requires |data| >= IdOffset + 4 && len <= |data|
    requires wm.expansionState == 3 && len != 0
    requires var r := Route(h, BigEndian32(data, IdOffset));
      || (r == NunchukHandler && p.nunchuk(data, len))
      || (r == GuitarHandler && p.guitarHero3(data, len))
      || (r == WiiBoardHandler && p.wiiBoard(data, len))
    ensures var t := Step(h, p, wm, Some(data), len);
      && t == Attach(wm)
      && t.wm.flags == wm.flags - {ExpHandshake} + {Exp}
      && t.cmds == Finish
  {
  }

  /** A classic block that asks for a retry keeps the cursor and the flags,
      clears the classic button and shoulder fields, and asks for the block
      again with its completion going to the expansion event handler. */
  lemma ClassicRetryKeepsState(h: Headers, p: Peripherals, wm: Wiimote, data: seq<byte>, len: nat)
    requires |data| >= IdOffset + 4 && len <= |data|
    requires wm.expansionState == 3 && len != 0
    requires Route(h, BigEndian32(data, IdOffset)) == ClassicHandler
    requires Classic.Handshake(h, wm.classic, data, len).Retry?
    ensures var t := Step(h, p, wm, Some(data), len);
      && t.wm == wm.(classic := Classic.Handshake(h, wm.classic, data, len).cc)
      && t.cmds == [ReadMem(h.expMemCalibr, h.expHandshakeLen, ToExpansionEvent)]
  {
  }

  /** A classic block that is accepted attaches a classic controller. */
  lemma ClassicDoneAttaches(h: Headers, p: Peripherals, wm: Wiimote, data: seq<byte>, len: nat)
    requires |data| >= IdOffset + 4 && len <= |data|
    requires wm.expansionState == 3 && len != 0
    requires Route(h, BigEndian32(data, IdOffset)) == ClassicHandler
    requires Classic.Handshake(h, wm.classic, data, len).Done?
    ensures var t := Step(h, p, wm, Some(data), len);
      && t.wm.flags == wm.flags - {ExpHandshake} + {Exp}
      && t.wm.expKind == ExpClassic && t.wm.event == ClassicCtrlInserted
      && t.wm.classic == Classic.Handshake(h, wm.classic, data, len).cc
      && t.wm.expansionState == 3
      && t.cmds == Finish
  {
  }

  /** `wiiuse_handshake_expansion_start`: nothing happens while an expansion
      is attached, has failed or is in its handshake; otherwise the
      handshake starts from state 0 and its first step runs at once. */
  function Start(h: Headers, p: Peripherals, wm: Wiimote): (t: Transition)
    ensures (Exp in wm.flags || ExpFailed in wm.flags || ExpHandshake in wm.flags) ==> t == Transition(wm, [])
    ensures !(Exp in wm.flags || ExpFailed in wm.flags || ExpHandshake in wm.flags) ==>
      && t.wm == wm.(expansionState := 1, flags := wm.flags + {ExpHandshake})
      && t.cmds == [WriteMem(h.expMemEnable1, EnableValue1, ToExpansionHandshake)]
  {
    if Exp in wm.flags || ExpFailed in wm.flags || ExpHandshake in wm.flags then
      Transition(wm, [])
    else
      Step(h, p, wm.(expansionState := 0, flags := wm.flags + {ExpHandshake}), None, 0)
  }

  /** The expansion kind a removal event names, `ExpNone` for any other
      event. */
  function RemovedKind(e: EventType): ExpKind
  {
    match e
    case NunchukRemoved => ExpNunchuk
    case ClassicCtrlRemoved => ExpClassic
    case GuitarHero3CtrlRemoved => ExpGuitarHero3
    case WiiBoardRemoved => ExpWiiBoard
    case MotionPlusRemoved => ExpMotionPlus
    case _ => ExpNone
  }

  /** The event raised when an expansion of each kind is removed; it names
      that kind. Removing with no known kind raises none (`event` keeps its
      value). */
  function RemovedEvent(kind: ExpKind, current: EventType): (e: EventType)
    ensures kind == ExpNone ==> e == current
    ensures kind != ExpNone ==> RemovedKind(e) == kind
  {
    match kind
    case ExpNunchuk => NunchukRemoved
    case ExpClassic => ClassicCtrlRemoved
    case ExpGuitarHero3 => GuitarHero3CtrlRemoved
    case ExpWiiBoard => WiiBoardRemoved
    case ExpMotionPlus => MotionPlusRemoved
    case ExpNone => current
  }

  /** `wiiuse_disable_expansion`. Only the classic controller's record is
      kept here, so it is the only one zeroed. */
  function DisableExpansion(wm: Wiimote): (t: Transition)
    ensures Exp !in wm.flags ==> t == Transition(wm, [])
    ensures Exp in wm.flags ==>
      && t.wm == wm.(
           flags := wm.flags - {Exp},
           expKind := ExpNone,
           event := RemovedEvent(wm.expKind, wm.event),
           classic := if wm.expKind == ExpClassic then Classic.Disconnected(wm.classic) else wm.classic)
      && t.cmds == Finish
  {
    if Exp !in wm.flags then
      Transition(wm, [])
    else
      var cleared := if wm.expKind == ExpClassic then wm.(classic := Classic.Disconnected(wm.classic)) else wm;
      Transition(cleared.(event := RemovedEvent(wm.expKind, wm.event), flags := wm.flags - {Exp}, expKind := ExpNone), Finish)
  }

  /** The entry guard, every step and removal keep `EXP` and
      `EXP_HANDSHAKE` from being set together. */
  lemma ExpFlagsStayExclusive(h: Headers, p: Peripherals, wm: Wiimote, data: Option<seq<byte>>, len: nat)
    requires BlockReadable(wm.expansionState, data, len)
    requires ExpFlagsExclusive(wm.flags)
    ensures ExpFlagsExclusive(Step(h, p, wm, data, len).wm.flags)
    ensures ExpFlagsExclusive(Start(h, p, wm).wm.flags)
    ensures ExpFlagsExclusive(DisableExpansion(wm).wm.flags)
  {
  }

  /** Plugging in a classic controller from the idle state: the start call
      and two write completions lead to the block read, and an accepted
      block attaches the controller. */
  lemma ClassicInsertionRun(h: Headers, p: Peripherals, wm: Wiimote, ack1: Option<seq<byte>>, ack2: Option<seq<byte>>, block: seq<byte>, len: nat)
    requires !(Exp in wm.flags || ExpFailed in wm.flags || ExpHandshake in wm.flags)
    requires |block| >= IdOffset + 4 && 0 < len <= |block|
    requires Route(h, BigEndian32(block, IdOffset)) == ClassicHandler
    requires Classic.Handshake(h, wm.classic, block, len).Done?
    ensures var t0 := Start(h, p, wm);
      var t1 := Step(h, p, t0.wm, ack1, 0);
      var t2 := Step(h, p, t1.wm, ack2, 0);
      var t3 := Step(h, p, t2.wm, Some(block), len);
      && t0.cmds + t1.cmds + t2.cmds + t3.cmds == [
           WriteMem(h.expMemEnable1, 0x55, ToExpansionHandshake),
           WriteMem(h.expMemEnable2, 0x00, ToExpansionHandshake),
           ReadMem(h.expMemCalibr, h.expHandshakeLen, ToExpansionHandshake),
           SetIrMode, RequestStatus(NoCallback)]
      && Exp in t3.wm.flags && ExpHandshake !in t3.wm.flags
      && t3.wm.expKind == ExpClassic && t3.wm.event == ClassicCtrlInserted
      && t3.wm.expansionState == 3
  {
    var t0 := Start(h, p, wm);
    var t1 := Step(h, p, t0.wm, ack1, 0);
    SetupSteps(h, p, t0.wm, ack1, 0);
    var t2 := Step(h, p, t1.wm, ack2, 0);
    SetupSteps(h, p, t1.wm, ack2, 0);
    assert t2.wm.classic == wm.classic;
    ClassicDoneAttaches(h, p, t2.wm, block, len);
  }

  /** The completion delivered to one call: the buffer (`None` for NULL)
      and its length. */
  datatype BlockReply = BlockReply(data: Option<seq<byte>>, len: nat)

  /** Each reply can be read by the call it is delivered to, in the state
      the earlier calls left the device in. */
  predicate RunReadable(h: Headers, p: Peripherals, wm: Wiimote, replies: seq<BlockReply>)
    decreases |replies|
  {
    |replies| == 0 ||
      (BlockReadable(wm.expansionState, replies[0].data, replies[0].len)
       && RunReadable(h, p, Step(h, p, wm, replies[0].data, replies[0].len).wm, replies[1..]))
  }

  /** Successive calls, one per reply, with the requests of all of them. */
  function Run(h: Headers, p: Peripherals, wm: Wiimote, replies: seq<BlockReply>): (t: Transition)
    requires RunReadable(h, p, wm, replies)
    decreases |replies|
  {
    if |replies| == 0 then Transition(wm, [])
    else
      var first := Step(h, p, wm, replies[0].data, replies[0].len);
      var rest := Run(h, p, first.wm, replies[1..]);
      Transition(rest.wm, first.cmds + rest.cmds)
  }

  /** Over any run the cursor only moves forward and stays within 0..3,
      EXP and EXP_HANDSHAKE are never set together, and an attached
      expansion stays attached. */
  lemma {:induction false} RunInvariants(h: Headers, p: Peripherals, wm: Wiimote, replies: seq<BlockReply>)
    requires RunReadable(h, p, wm, replies)
    requires 0 <= wm.expansionState <= 3
    requires ExpFlagsExclusive(wm.flags)
    ensures var t := Run(h, p, wm, replies);
      && wm.expansionState <= t.wm.expansionState <= 3
      && ExpFlagsExclusive(t.wm.flags)
      && (Exp in wm.flags ==> Exp in t.wm.flags)
    decreases |replies|
  {
    if |replies| > 0 {
      var first := Step(h, p, wm, replies[0].data, replies[0].len);
      RunInvariants(h, p, first.wm, replies[1..]);
    }
  }
}

=== FILE: handshake.dfy ===
/** The asynchronous device handshake `wiiuse_handshake` (src/io.c, the
    build without `WIIUSE_SYNC_HANDSHAKE`). Each call is one step of a cursor
    `handshake_state`; the reply to every request it sends is delivered back
    to it. The buffer passed in is the reply to the previous request.

    The code reads the accelerometer calibration with a request for 7 bytes
    and then decodes 8 (bytes 0..7). `StepWith` takes that read length as a
    parameter: `Handshake` asks for the 8 bytes the decode needs,
    `HandshakeAsWritten` asks for 7, and the lemmas about transitions and
    runs hold for any read length. */
module DeviceHandshake {
  import opened Bytes
  import opened Wire
  import opened Device
  import Accel

  /** The length of the calibration read as the code requests it. */
  const CalibReadLenAsWritten := 7

  /** The length of the ID read sent when an expansion is attached. */
  const ExpIdReadLen := 6

  /** The status reply says an expansion is plugged in. */
  predicate Attached(h: Headers, data: seq<byte>, len: nat)
    requires len <= |data|
  {
    len > 2 && data[2] & h.statusAttachment != 0
  }

  /** Bytes 2..5 hold the Wii U Pro expansion ID. */
  predicate IsWiiuProId(h: Headers, data: seq<byte>)
    requires |data| >= 6
  {
    BigEndian32(data, 2) == h.idWiiuPro
  }

  /** What the ID check reads without looking at `len`: bytes 2..5, and on
      a match the 8 bytes it clears. */
  predicate ProbeReadable(h: Headers, data: seq<byte>)
  {
    |data| >= 6 && (IsWiiuProId(h, data) ==> |data| >= Accel.AccelCalibLen)
  }

  /** What a call in state `state` reads of the buffer. In state 0 the buffer
      is not looked at (it is NULL on the first call). */
  predicate Readable(h: Headers, state: int, data: seq<byte>, len: nat)
  {
    && len <= |data|
    && (if state == 0 then true
        else if state == 1 then Attached(h, data, len) || ProbeReadable(h, data)
        else if state == 2 then ProbeReadable(h, data)
        else |data| >= Accel.AccelCalibLen)
  }

  /** `memset(data, 0, 8)`. */
  function ZeroPrefix(data: seq<byte>): (r: seq<byte>)
    requires |data| >= Accel.AccelCalibLen
    ensures |r| == |data|
    ensures forall i :: 0 <= i < Accel.AccelCalibLen ==> r[i] == 0
    ensures r[Accel.AccelCalibLen..] == data[Accel.AccelCalibLen..]
  {
    seq(Accel.AccelCalibLen, _ => 0) + data[Accel.AccelCalibLen..]
  }

  /** The code after the switch: decode the calibration, mark the handshake
      complete, raise the connect event and ask for a status report. */
  function Complete(wm: Wiimote, data: seq<byte>, sent: seq<Command>): (t: Transition)
    requires |data| >= Accel.AccelCalibLen
    ensures t.wm.flags == wm.flags - {Handshaking} + {HandshakeComplete}
    ensures t.wm.accelCalib == Accel.Decode(data)
    ensures t.wm.event == Connect
    ensures t.cmds == sent + [RequestStatus(NoCallback)]
    ensures t.wm.handshakeState == wm.handshakeState
  {
    Transition(
      wm.(accelCalib := Accel.Decode(data), flags := wm.flags - {Handshaking} + {HandshakeComplete}, event := Connect),
      sent + [RequestStatus(NoCallback)])
  }

  /** The body of case 2: a Wii U Pro ID clears the buffer and completes;
      anything else moves on and requests the calibration. */
  function Probe(h: Headers, wm: Wiimote, data: seq<byte>, readLen: nat, sent: seq<Command>): (t: Transition)
    requires ProbeReadable(h, data)
    ensures IsWiiuProId(h, data) ==>
      && t.wm.handshakeState == wm.handshakeState
      && WiiuPro in t.wm.flags && HandshakeComplete in t.wm.flags
      && t.wm.accelCalib == Accel.AccelCalib(Accel.Vec3w(0, 0, 0), Accel.Vec3w(0, 0, 0))
      && t.cmds == sent + [RequestStatus(NoCallback)]
    ensures !IsWiiuProId(h, data) ==>
      && t.wm == wm.(handshakeState := wm.handshakeState + 1)
      && t.cmds == sent + [ReadMem(h.memOffsetCalibration, readLen, ToHandshake)]
  {
    if IsWiiuProId(h, data) then
      Accel.DecodeZeros(ZeroPrefix(data));
      Complete(wm.(flags := wm.flags + {WiiuPro}), ZeroPrefix(data), sent)
    else
      Transition(
        wm.(handshakeState := wm.handshakeState + 1),
        sent + [ReadMem(h.memOffsetCalibration, readLen, ToHandshake)])
  }

  /** Which calls reach the completion code: any state past 2, or the Wii U
      Pro ID seen in case 2, entered directly or by falling through from
      case 1 without an attachment. */
  predicate Completes(h: Headers, state: int, data: seq<byte>, len: nat)
    requires Readable(h, state, data, len)
  {
    || (state != 0 && state != 1 && state != 2)
    || (state == 1 && !Attached(h, data, len) && IsWiiuProId(h, data))
    || (state == 2 && IsWiiuProId(h, data))
  }

  /** The last request is the status request without callback that
      completion sends; no other step ends with it. */
  predicate EndsWithStatusRequest(cmds: seq<Command>)
  {
    |cmds| > 0 && cmds[|cmds| - 1] == RequestStatus(NoCallback)
  }

  /** One call with the calibration read length `readLen`. */
  function StepWith(h: Headers, wm: Wiimote, data: seq<byte>, len: nat, readLen: nat): (t: Transition)
    requires Readable(h, wm.handshakeState, data, len)
    ensures t.wm.handshakeState >= wm.handshakeState
    ensures t.wm.expansionState == wm.expansionState && t.wm.expKind == wm.expKind && t.wm.classic == wm.classic
    ensures t.wm.flags - {Handshaking, HandshakeComplete, WiiuPro} == wm.flags - {Handshaking, HandshakeComplete, WiiuPro}
    ensures Completes(h, wm.handshakeState, data, len) <==> EndsWithStatusRequest(t.cmds)
    ensures Completes(h, wm.handshakeState, data, len) ==>
      && Handshaking !in t.wm.flags && HandshakeComplete in t.wm.flags
      && t.wm.event == Connect
    ensures !Completes(h, wm.handshakeState, data, len) ==>
      t.wm == wm.(handshakeState := t.wm.handshakeState)
  {
    match wm.handshakeState
    case 0 =>
      Transition(wm.(handshakeState := 1), [ClearLeds, RequestStatus(ToHandshake)])
    case 1 =>
      if Attached(h, data, len) then
        Transition(wm.(handshakeState := 2), [ReadMem(h.expId, ExpIdReadLen, ToHandshake)])
      else
        Probe(h, wm.(handshakeState := 3), data, readLen, [ReadMem(h.memOffsetCalibration, readLen, ToHandshake)])
    case 2 =>
      Probe(h, wm, data, readLen, [])
    case _ =>
      Complete(wm, data, [])
  }

  /** `wiiuse_handshake(wm, data, len)` with a read length; a NULL device is
      left alone and nothing is sent. */
  function HandshakeWith(h: Headers, wm: Option<Wiimote>, data: seq<byte>, len: nat, readLen: nat): (r: Option<Transition>)
    requires wm.Some? ==> Readable(h, wm.value.handshakeState, data, len)
    ensures r.None? <==> wm.None?
    ensures wm.Some? ==> r.value.wm.handshakeState >= wm.value.handshakeState
  {
    match wm
    case None => None
    case Some(w) => Some(StepWith(h, w, data, len, readLen))
  }

  /** The handshake with the calibration read covering the 8 decoded bytes. */
  function Handshake(h: Headers, wm: Option<Wiimote>, data: seq<byte>, len: nat): (r: Option<Transition>)
    requires wm.Some? ==> Readable(h, wm.value.handshakeState, data, len)
    ensures r.None? <==> wm.None?
    ensures wm.Some? ==> r.value.wm.handshakeState >= wm.value.handshakeState
  {
    HandshakeWith(h, wm, data, len, Accel.AccelCalibLen)
  }

  /** The handshake as the code writes it: the calibration read asks for 7
      bytes. */
  function HandshakeAsWritten(h: Headers, wm: Option<Wiimote>, data: seq<byte>, len: nat): (r: Option<Transition>)
    requires wm.Some? ==> Readable(h, wm.value.handshakeState, data, len)
    ensures r.None? <==> wm.None?
    ensures wm.Some? ==> r.value.wm.handshakeState >= wm.value.handshakeState
  {
    HandshakeWith(h, wm, data, len, CalibReadLenAsWritten)
  }

  /** The transitions that do not complete: the cursor moves 0 -> 1, 1 -> 2
      with an attachment, 1 -> 4 without one (the fall-through into case 2),
      2 -> 3, and each sends the listed requests. */
  lemma NonCompletingTransitions(h: Headers, wm: Wiimote, data: seq<byte>, len: nat, readLen: nat)
    requires Readable(h, wm.handshakeState, data, len)
    requires !Completes(h, wm.handshakeState, data, len)
    ensures var t := HandshakeWith(h, Some(wm), data, len, readLen).value;
      var calib := ReadMem(h.memOffsetCalibration, readLen, ToHandshake);
      && (wm.handshakeState == 0 ==> t.wm.handshakeState == 1 && t.cmds == [ClearLeds, RequestStatus(ToHandshake)])
      && (wm.handshakeState == 1 && Attached(h, data, len) ==>
            t.wm.handshakeState == 2 && t.cmds == [ReadMem(h.expId, ExpIdReadLen, ToHandshake)])
      && (wm.handshakeState == 1 && !Attached(h, data, len) ==>
            t.wm.handshakeState == 4 && t.cmds == [calib, calib])
      && (wm.handshakeState == 2 ==> t.wm.handshakeState == 3 && t.cmds == [calib])
  {
  }

  /** Past state 2 every call decodes the buffer, keeps the cursor and sends
      one status request. */
  lemma LateCallCompletes(h: Headers, wm: Wiimote, data: seq<byte>, len: nat, readLen: nat)
    requires wm.handshakeState >= 3
    requires Readable(h, wm.handshakeState, data, len)
    ensures var t := HandshakeWith(h, Some(wm), data, len, readLen).value;
      && t.wm.handshakeState == wm.handshakeState
      && t.wm.accelCalib == Accel.Decode(data)
      && t.wm.flags == wm.flags - {Handshaking} + {HandshakeComplete}
      && t.cmds == [RequestStatus(NoCallback)]
  {
  }

  /** On the Wii U Pro path the calibration bytes are cleared before the
      decode, so every calibration value is zero, and the Wii U Pro flag is
      set. */
  lemma WiiuProCompletesWithZeroCalibration(h: Headers, wm: Wiimote, data: seq<byte>, len: nat, readLen: nat)
    requires Readable(h, wm.handshakeState, data, len)
    requires wm.handshakeState == 1 || wm.handshakeState == 2
    requires Completes(h, wm.handshakeState, data, len)
    ensures var t := HandshakeWith(h, Some(wm), data, len, readLen).value;
      && WiiuPro in t.wm.flags
      && t.wm.accelCalib == Accel.AccelCalib(Accel.Vec3w(0, 0, 0), Accel.Vec3w(0, 0, 0))
  {
  }

  /** Where the Wii U Pro path leaves the cursor and what it sends: entered
      from case 1 without an attachment, the cursor was already set to 3 and
      the calibration read already sent before the fall-through; entered in
      case 2, only the status request goes out. */
  lemma WiiuProTransitions(h: Headers, wm: Wiimote, data: seq<byte>, len: nat, readLen: nat)
    requires Readable(h, wm.handshakeState, data, len)
    requires wm.handshakeState == 1 || wm.handshakeState == 2
    requires Completes(h, wm.handshakeState, data, len)
    ensures var t := HandshakeWith(h, Some(wm), data, len, readLen).value;
      && (wm.handshakeState == 1 ==>
            t.wm.handshakeState == 3
            && t.cmds == [ReadMem(h.memOffsetCalibration, readLen, ToHandshake), RequestStatus(NoCallback)])
      && (wm.handshakeState == 2 ==>
            t.wm.handshakeState == 2 && t.cmds == [RequestStatus(NoCallback)])
  {
  }

  /** The handshake never touches the expansion flags, so it keeps them
      exclusive. */
  lemma HandshakeKeepsExpFlagsExclusive(h: Headers, wm: Wiimote, data: seq<byte>, len: nat, readLen: nat)
    requires Readable(h, wm.handshakeState, data, len)
    requires ExpFlagsExclusive(wm.flags)
    ensures ExpFlagsExclusive(HandshakeWith(h, Some(wm), data, len, readLen).value.wm.flags)
  {
    var t := HandshakeWith(h, Some(wm), data, len, readLen).value;
    assert Exp in t.wm.flags <==> Exp in wm.flags;
    assert ExpHandshake in t.wm.flags <==> ExpHandshake in wm.flags;
  }

  /** A Wiimote without an expansion: the first call asks for the status,
      the status reply moves the cursor to 4 and asks for the calibration
      (twice, `readLen` bytes each: 7 as the code writes it), and the
      calibration reply completes the handshake with the decoded
      calibration. */
  lemma RunWithoutExpansion(h: Headers, wm: Wiimote, status: seq<byte>, statusLen: nat, calib: seq<byte>, calibLen: nat, readLen: nat)
    requires wm.handshakeState == 0
    requires statusLen <= |status| && !Attached(h, status, statusLen)
    requires |status| >= 6 && !IsWiiuProId(h, status)
    requires calibLen <= |calib| && |calib| >= Accel.AccelCalibLen
    ensures var t1 := HandshakeWith(h, Some(wm), [], 0, readLen).value;
      var t2 := HandshakeWith(h, Some(t1.wm), status, statusLen, readLen).value;
      var t3 := HandshakeWith(h, Some(t2.wm), calib, calibLen, readLen).value;
      var read := ReadMem(h.memOffsetCalibration, readLen, ToHandshake);
      && t1.cmds + t2.cmds + t3.cmds == [ClearLeds, RequestStatus(ToHandshake), read, read, RequestStatus(NoCallback)]
      && t3.wm.handshakeState == 4
      && HandshakeComplete in t3.wm.flags && Handshaking !in t3.wm.flags
      && t3.wm.accelCalib == Accel.Decode(calib)
      && t3.wm.event == Connect
  {
    var t1 := HandshakeWith(h, Some(wm), [], 0, readLen).value;
    NonCompletingTransitions(h, wm, [], 0, readLen);
    NonCompletingTransitions(h, t1.wm, status, statusLen, readLen);
    var t2 := HandshakeWith(h, Some(t1.wm), status, statusLen, readLen).value;
    LateCallCompletes(h, t2.wm, calib, calibLen, readLen);
  }

  /** A Wiimote whose expansion reports the Wii U Pro ID: status, ID read,
      then completion with a zero calibration and the Wii U Pro flag. */
  lemma RunWiiuPro(h: Headers, wm: Wiimote, status: seq<byte>, statusLen: nat, id: seq<byte>, idLen: nat, readLen: nat)
    requires wm.handshakeState == 0
    requires statusLen <= |status| && Attached(h, status, statusLen)
    requires idLen <= |id| && |id| >= Accel.AccelCalibLen && IsWiiuProId(h, id)
    ensures var t1 := HandshakeWith(h, Some(wm), [], 0, readLen).value;
      var t2 := HandshakeWith(h, Some(t1.wm), status, statusLen, readLen).value;
      var t3 := HandshakeWith(h, Some(t2.wm), id, idLen, readLen).value;
      && t1.cmds + t2.cmds + t3.cmds
         == [ClearLeds, RequestStatus(ToHandshake), ReadMem(h.expId, ExpIdReadLen, ToHandshake), RequestStatus(NoCallback)]
      && t3.wm.handshakeState == 2
      && HandshakeComplete in t3.wm.flags && WiiuPro in t3.wm.flags
      && t3.wm.accelCalib == Accel.AccelCalib(Accel.Vec3w(0, 0, 0), Accel.Vec3w(0, 0, 0))
  {
    var t1 := HandshakeWith(h, Some(wm), [], 0, readLen).value;
    NonCompletingTransitions(h, wm, [], 0, readLen);
    NonCompletingTransitions(h, t1.wm, status, statusLen, readLen);
    var t2 := HandshakeWith(h, Some(t1.wm), status, statusLen, readLen).value;
    WiiuProCompletesWithZeroCalibration(h, t2.wm, id, idLen, readLen);
  }

  // ---------------------------------------------------------------------------
  // The calibration read length

  /** The buffer after a read of `n` bytes: the first `n` bytes come from the
      device, the rest is whatever the buffer held. */
  function Fill(buf: seq<byte>, device: seq<byte>, n: nat): (r: seq<byte>)
    requires n <= |buf| && n <= |device|
    ensures |r| == |buf|
    ensures forall i :: 0 <= i < n ==> r[i] == device[i]
    ensures forall i :: n <= i < |buf| ==> r[i] == buf[i]
  {
    device[..n] + buf[n..]
  }

  /** As written, the calibration request asks for fewer bytes than the
      decode reads. */
  lemma AsWrittenReadIsShort(h: Headers, wm: Wiimote, data: seq<byte>, len: nat)
    requires wm.handshakeState == 2 && Readable(h, 2, data, len) && !IsWiiuProId(h, data)
    ensures HandshakeAsWritten(h, Some(wm), data, len).value.cmds
      == [ReadMem(h.memOffsetCalibration, CalibReadLenAsWritten, ToHandshake)]
    ensures CalibReadLenAsWritten < Accel.AccelCalibLen
  {
  }

  /** As written, the decoded gravity value depends on byte 7 of the buffer,
      which the 7-byte read never fills: two buffers that differ only there
      give different calibrations for the same device reply. */
  lemma AsWrittenDecodesUnreadByte(buf: seq<byte>, device: seq<byte>)
    requires |buf| == Accel.AccelCalibLen && |device| >= Accel.AccelCalibLen
    ensures var buf' := buf[7 := buf[7] ^ 0x10];
      Accel.Decode(Fill(buf', device, CalibReadLenAsWritten)).calG.x
        != Accel.Decode(Fill(buf, device, CalibReadLenAsWritten)).calG.x
  {
    var buf' := buf[7 := buf[7] ^ 0x10];
    var f := Fill(buf, device, CalibReadLenAsWritten);
    var f' := Fill(buf', device, CalibReadLenAsWritten);
    assert f' == f[7 := f[7] ^ 0x10] by {
      assert forall i :: 0 <= i < 7 ==> f'[i] == f[i];
    }
    Accel.DecodeReadsByte7(f);
  }

  /** Corrected, the read covers every decoded byte: the calibration depends
      on the device reply alone. */
  lemma CorrectedDecodesOnlyReadBytes(h: Headers, wm: Wiimote, data: seq<byte>, len: nat, buf1: seq<byte>, buf2: seq<byte>, device: seq<byte>)
    requires wm.handshakeState == 2 && Readable(h, 2, data, len) && !IsWiiuProId(h, data)
    requires |buf1| == Accel.AccelCalibLen && |buf2| == Accel.AccelCalibLen && |device| >= Accel.AccelCalibLen
    ensures Handshake(h, Some(wm), data, len).value.cmds
      == [ReadMem(h.memOffsetCalibration, Accel.AccelCalibLen, ToHandshake)]
    ensures Accel.Decode(Fill(buf1, device, Accel.AccelCalibLen)) == Accel.Decode(Fill(buf2, device, Accel.AccelCalibLen))
  {
    assert Fill(buf1, device, Accel.AccelCalibLen) == Fill(buf2, device, Accel.AccelCalibLen);
  }

  // ---------------------------------------------------------------------------
  // Runs of calls

  /** The reply delivered to one call: the buffer and its length. */
  datatype Reply = Reply(data: seq<byte>, len: nat)

  /** Each reply can be read by the call it is delivered to, in the state
      the earlier calls left the device in. */
  predicate RunReadable(h: Headers, wm: Wiimote, replies: seq<Reply>, readLen: nat)
    decreases |replies|
  {
    |replies| == 0 ||
      (Readable(h, wm.handshakeState, replies[0].data, replies[0].len)
       && RunReadable(h, StepWith(h, wm, replies[0].data, replies[0].len, readLen).wm, replies[1..], readLen))
  }

  /** Successive calls on a device, one per reply, with the requests of all
      of them. */
  function Run(h: Headers, wm: Wiimote, replies: seq<Reply>, readLen: nat): (t: Transition)
    requires RunReadable(h, wm, replies, readLen)
    decreases |replies|
  {
    if |replies| == 0 then Transition(wm, [])
    else
      var first := StepWith(h, wm, replies[0].data, replies[0].len, readLen);
      var rest := Run(h, first.wm, replies[1..], readLen);
      Transition(rest.wm, first.cmds + rest.cmds)
  }

  /** Over any run, with either read length, the cursor never decreases, a
      completed handshake stays completed, and the expansion part of the
      device is untouched. */
  lemma {:induction false} RunInvariants(h: Headers, wm: Wiimote, replies: seq<Reply>, readLen: nat)
    requires RunReadable(h, wm, replies, readLen)
    ensures var t := Run(h, wm, replies, readLen);
      && t.wm.handshakeState >= wm.handshakeState
      && (HandshakeComplete in wm.flags ==> HandshakeComplete in t.wm.flags)
      && t.wm.expansionState == wm.expansionState && t.wm.expKind == wm.expKind && t.wm.classic == wm.classic
      && (Exp in t.wm.flags <==> Exp in wm.flags)
      && (ExpHandshake in t.wm.flags <==> ExpHandshake in wm.flags)
      && (ExpFailed in t.wm.flags <==> ExpFailed in wm.flags)
    decreases |replies|
  {
    if |replies| > 0 {
      var first := StepWith(h, wm, replies[0].data, replies[0].len, readLen);
      assert Exp in first.wm.flags <==> Exp in wm.flags;
      assert ExpHandshake in first.wm.flags <==> ExpHandshake in wm.flags;
      assert ExpFailed in first.wm.flags <==> ExpFailed in wm.flags;
      RunInvariants(h, first.wm, replies[1..], readLen);
    }
  }
}

=== FILE: readsync.dfy ===
/** The packet and chunk arithmetic of `wiiuse_read_data_sync` (src/io.c).
    A read request is a 6-byte packet: one byte choosing the address space,
    the low 24 bits of the address and the 16-bit size, both big-endian.
    The reply arrives in reports that each carry 16 data bytes at offset 6
    of the report; the last one carries the remainder. Sending, waiting for
    reports, the timeout and the retry loop are not part of this model. */
module ReadSync {
  import opened Bytes

  const ChunkLen := 16

  /** Where the data bytes start in a read report. */
  const PayloadOffset := 6

  /** The address-space byte: 0x00 for memory (EEPROM), 0x04 for registers. */
  function SpaceByte(memory: byte): (b: byte)
    ensures b == 0x00 || b == 0x04
    ensures b == 0x00 <==> memory != 0
  {
    if memory != 0 then 0x00 else 0x04
  }

  /** The request packet: the address is written big-endian over bytes 0..3
      and byte 0 is then overwritten with the address-space byte. */
  function ReadPacket(memory: byte, addr: dword, size: word): (pkt: seq<byte>)
    ensures |pkt| == 6
    ensures pkt[0] == SpaceByte(memory)
  {
    ToBigEndian32(addr)[0 := SpaceByte(memory)] + ToBigEndian16(size)
  }

  /** What a packet asks for: the address space, a 24-bit address and the
      size. */
  datatype ReadRequest = ReadRequest(fromMemory: bool, addr: dword, size: word)

  function ParseReadPacket(pkt: seq<byte>): (r: ReadRequest)
    requires |pkt| == 6
    ensures r.addr < 0x100_0000
  {
    ReadRequest(
      pkt[0] == 0x00,
      ((pkt[1] as dword) << 16) | ((pkt[2] as dword) << 8) | (pkt[3] as dword),
      BigEndian16(pkt[4], pkt[5]))
  }

  /** The packet carries the address space, the address with its top byte
      dropped, and the size. */
  lemma ReadPacketRoundTrip(memory: byte, addr: dword, size: word)
    ensures ParseReadPacket(ReadPacket(memory, addr, size)) == ReadRequest(memory != 0, addr & 0xFF_FFFF, size)
  {
    var a := ToBigEndian32(addr);
    var pkt := ReadPacket(memory, addr, size);
    assert pkt[1..4] == a[1..4];
    assert pkt[4..] == ToBigEndian16(size);
  }

  /** How many full reports and how many bytes in the last one. */
  datatype Chunks = Chunks(full: nat, last: nat)

  function ChunkSplit(size: word): (c: Chunks)
    ensures c.full * ChunkLen + c.last == size as int
    ensures c.last < ChunkLen
  {
    Chunks(size as int / ChunkLen, size as int % ChunkLen)
  }

  /** The number of reports the reply takes. */
  function ReportsNeeded(size: word): nat
  {
    var c := ChunkSplit(size);
    if c.last != 0 then c.full + 1 else c.full
  }

  predicate ReportsLongEnough(reports: seq<seq<byte>>)
  {
    forall i :: 0 <= i < |reports| ==> |reports[i]| >= PayloadOffset + ChunkLen
  }

  /** The data bytes of a reply, assuming every report arrives: byte `k`
      is byte `k % 16` of the payload of report `k / 16`. */
  method Reassemble(size: word, reports: seq<seq<byte>>) returns (out: seq<byte>)
    requires |reports| >= ReportsNeeded(size)
    requires ReportsLongEnough(reports)
    ensures |out| == size as int
    ensures forall k :: 0 <= k < |out| ==> out[k] == reports[k / ChunkLen][PayloadOffset + k % ChunkLen]
  {
    var c := ChunkSplit(size);
    out := [];
    var i := 0;
    while i < c.full
      invariant 0 <= i <= c.full
      invariant |out| == i * ChunkLen
      invariant forall k :: 0 <= k < |out| ==> out[k] == reports[k / ChunkLen][PayloadOffset + k % ChunkLen]
    {
      out := out + reports[i][PayloadOffset .. PayloadOffset + ChunkLen];
      i := i + 1;
    }
    if c.last != 0 {
      out := out + reports[c.full][PayloadOffset .. PayloadOffset + c.last];
    }
  }

  // ---------------------------------------------------------------------------
  // Whether a pass of the read loop ends the loop

  /** `wiiuse_wait_report` returns 1 when the report arrived and -1 when it
      timed out; it never returns 0. */
  function WaitCode(arrived: bool): (rc: int)
    ensures rc != 0
    ensures rc > 0 <==> arrived
  {
    if arrived then 1 else -1
  }

  /** How many of the first `n` waits succeed before the first timeout. */
  function CountArrived(arrived: seq<bool>, n: nat): (k: nat)
    requires n <= |arrived|
    ensures k <= n
    ensures forall j :: 0 <= j < k ==> arrived[j]
    ensures k < n ==> !arrived[k]
  {
    if n == 0 then 0
    else
      var k := CountArrived(arrived, n - 1);
      if k == n - 1 && arrived[n - 1] then n else k
  }

  /** One pass of the loop body: the number of full reports copied and
      whether the loop ends. `arrived[j]` is the outcome of the j-th wait of
      the pass. */
  datatype PassResult = PassResult(copied: nat, done: bool)

  /** The pass as the code writes it: the full-report loop stops at the first
      timeout, and then the loop ends unless the last partial report's wait
      returns 0. */
  function PassAsWritten(size: word, arrived: seq<bool>): (p: PassResult)
    requires |arrived| >= ReportsNeeded(size)
    ensures p.copied <= ChunkSplit(size).full
    ensures forall j :: 0 <= j < p.copied ==> arrived[j]
    ensures p.copied < ChunkSplit(size).full ==> !arrived[p.copied]
  {
    var c := ChunkSplit(size);
    var k := CountArrived(arrived, c.full);
    var waited := if k < c.full then k + 1 else c.full;
    if c.last != 0 then PassResult(k, WaitCode(arrived[waited]) != 0) else PassResult(k, true)
  }

  /** As written the loop always ends after one pass, whatever times out:
      the retry announced for a timeout never happens. */
  lemma PassAsWrittenAlwaysDone(size: word, arrived: seq<bool>)
    requires |arrived| >= ReportsNeeded(size)
    ensures PassAsWritten(size, arrived).done
  {
  }

  /** A 16-byte read whose only report times out ends the loop with nothing
      copied. */
  lemma PassAsWrittenGivesUpOnTimeout()
    ensures PassAsWritten(16, [false]) == PassResult(0, true)
  {
  }

  /** The pass with the loop ending only when every wait it makes succeeds. */
  function ReadPass(size: word, arrived: seq<bool>): (p: PassResult)
    requires |arrived| >= ReportsNeeded(size)
    ensures p.copied <= ChunkSplit(size).full
    ensures forall j :: 0 <= j < p.copied ==> arrived[j]
    ensures p.copied < ChunkSplit(size).full ==> !arrived[p.copied]
    ensures p.done ==> p.copied == ChunkSplit(size).full
  {
    var c := ChunkSplit(size);
    var k := CountArrived(arrived, c.full);
    PassResult(k, k == c.full && (c.last == 0 || WaitCode(arrived[c.full]) > 0))
  }

  /** Corrected, the loop ends exactly when every report of the reply
      arrived; otherwise the read is sent again. */
  lemma PassDoneIffAllArrived(size: word, arrived: seq<bool>)
    requires |arrived| >= ReportsNeeded(size)
    ensures ReadPass(size, arrived).done <==> forall j :: 0 <= j < ReportsNeeded(size) ==> arrived[j]
  {
  }
}

=== FILE: wire.dfy ===
/** What the handshake code asks of the transport, and the header constants it
    uses. The transport itself (sending reports, completing reads and writes) is
    not part of this model: each request is an emitted `Command` naming the
    callback its completion is delivered to. */
module Wire {
  import opened Bytes

  datatype Option<T> = None | Some(value: T)

  /** The function a completion is delivered to. */
  datatype Callback =
    | ToHandshake             // wiiuse_handshake
    | ToExpansionHandshake    // wiiuse_handshake_expansion
    | ToExpansionEvent        // handshake_expansion, declared in events.h
    | NoCallback              // NULL

  datatype Command =
    | ClearLeds                                           // wiiuse_set_leds(wm, WIIMOTE_LED_NONE, NULL)
    | RequestStatus(cb: Callback)                         // wiiuse_status
    | ReadMem(addr: dword, len: nat, cb: Callback)        // wiiuse_read_data / wiiuse_read_data_cb
    | WriteMem(addr: dword, value: byte, cb: Callback)    // wiiuse_write_data of one byte
    | SetIrMode                                           // wiiuse_set_ir_mode

  /** Constants the core takes from headers that are not part of this model.
      They are left abstract: every operation that needs them takes a `Headers`
      value, and `Valid` states the only facts the code relies on. */
  datatype Headers = Headers(
    expId: dword,                  // WM_EXP_ID
    memOffsetCalibration: dword,   // WM_MEM_OFFSET_CALIBRATION
    expMemEnable1: dword,          // WM_EXP_MEM_ENABLE1
    expMemEnable2: dword,          // WM_EXP_MEM_ENABLE2
    expMemCalibr: dword,           // WM_EXP_MEM_CALIBR
    expHandshakeLen: nat,          // EXP_HANDSHAKE_LEN
    statusAttachment: byte,        // WM_CTRL_STATUS_BYTE1_ATTACHMENT
    idNunchuk: dword,              // EXP_ID_CODE_NUNCHUK
    idClassic: set<dword>,         // the ten EXP_ID_CODE_CLASSIC_* labels of one switch arm
    idGuitar: dword,               // EXP_ID_CODE_GUITAR
    idWiiBoard: dword,             // EXP_ID_CODE_WIIBOARD
    idWiiuPro: dword,              // EXP_ID_CODE_CLASSIC_WIIU_PRO
    buttonAll: word,               // CLASSIC_CTRL_BUTTON_ALL
    buttonFullL: word,             // CLASSIC_CTRL_BUTTON_FULL_L
    buttonFullR: word)             // CLASSIC_CTRL_BUTTON_FULL_R
  {
    /** The case labels of the ID switch are distinct (C refuses duplicate
        labels), the Wii U Pro code is one of the classic labels, and the
        expansion buffer holds the 4-byte ID at offset 220 and fits the 16-bit
        length parameter. */
    predicate Valid()
    {
      && 224 <= expHandshakeLen <= 0xFFFF
      && idWiiuPro in idClassic
      && idNunchuk !in idClassic && idGuitar !in idClassic && idWiiBoard !in idClassic
      && idNunchuk != idGuitar && idNunchuk != idWiiBoard && idGuitar != idWiiBoard
    }
  }
}
